=== FILE: README.md ===
# Item naming in bindgen's IR, modelled in Dafny

This project models how rust-bindgen names the items of its intermediate
representation (`src/ir/item.rs`). Every item has an id, a parent and a kind.
The root module is its own parent. From that graph the naming layer derives:

- the ancestor iterator, which walks parent links up to the root;
- lazily assigned **local ids**, which tell anonymous siblings apart;
- the **name target**, found by chasing type references and template
  instantiations;
- an item's **base name**: annotation path, declared name, `_bindgen_ty_` /
  `_bindgen_mod_` plus an exposed id, or a function name plus its overload
  index;
- the **canonical name**: the enclosing names joined with `_` and mangled,
  cached per item;
- the **canonical path** and the namespace-aware path the code generator
  emits;
- whether an item is **top level**.

The Rust `Item` mixes immutable data with three interior-mutable cells: the
local id, the next child local id and the canonical name cache. The model
keeps them apart:

- the immutable store is `Items.Context`;
- the cells are an explicit `Items.Cells` map;
- every operation that may write a cell takes the cells and returns them
  updated (`Out<T>`).

`Items.Extends` says how cells may evolve: a local id, once set, stays; a
counter never decreases; a cached name, once set, stays. Much of the proof
work shows that names computed once never change afterwards.

The panics of the naming layer become an `Error` value:

- the two debug-build cycle assertions (ancestor iterator, `name_target`);
- the `panic!` on an unresolved type reference in `base_name`;
- the endless loop of `is_toplevel` on a cycle of modules;
- the `unwrap` or slice of an empty path.

`Items.Closed` states what `resolve_item`, `expect_function` and the
`unwrap` on an annotation path rely on: every referenced id exists, every
method is a function, annotation paths are non-empty, and `Item::new`'s
assertion holds. `Items.RootOk` states that the root is the only item that is
its own parent. `ParentRanked` and `LinkRanked` state that parent links and
type-reference links are acyclic.

Modules:

- `Items`: the data model, `Item::new`, and the predicates above.
- `AncestorWalk`: `ItemAncestorsIter`.
- `LocalIds`: `local_id`.
- `Targets`: `name_target`.
- `Overloads`: `func_name` and `overload_index`.
- `Naming`: `exposed_id`, `base_name`, `real_canonical_name`,
  `canonical_name` and `NameOptions`.
- `NamingFacts`: properties of the naming functions.
- `Paths`: `canonical_path` and `namespace_aware_canonical_path`.
- `Toplevel`: `is_toplevel`.
- `SoundIds`: local ids stay sound through every naming operation.
- `Fixtures`: a concrete store built from `bindgen-integration/cpp/Test.h`.
- `Strings` and `Results`: generic helpers.

## Model

| member | source | states |
|---|---|---|
| Items.NewItem | src/ir/item.rs:415-434 | the debug assertion of `Item::new` is its precondition; a new item starts with the cells nothing has been named in (see `Items.NewItemKeepsStoreSound` for why that keeps the store sound); supplied annotations are kept and missing ones become the default ones |
| Items.NewItemKeepsStoreSound | src/ir/item.rs:415-434 | adding a new item whose parent and references exist keeps the store invariants, keeps every item's cells covered, and keeps local ids sound |
| Items.Fresh | src/ir/item.rs:423-425 | cells for a store nothing has been named in yet: every item without a local id, with child counter 1 and without a cached name |
| AncestorWalk.Walk | src/ir/item.rs:118-131 | the iterator yields nothing exactly when the start is its own parent; otherwise it yields the start first; the only failure is the debug assertion on a repeated id |
| AncestorWalk.WalkShape | src/ir/item.rs:118-131 | every yielded id is in the store and not its own parent; each is the parent of the one before; no id repeats; the walk ends where an item is its own parent |
| AncestorWalk.AncestorsStopAtRoot | src/ir/item.rs:63-64 | with a proper root, the walk ends at the root and never yields it |
| AncestorWalk.AncestorsRankedOk | src/ir/item.rs:118-131 | when parent links are acyclic, the cycle assertion never fires |
| LocalIds.LocalId | src/ir/item.rs:486-494 | the first call takes the parent's counter as the id, increments that counter and leaves the parent's own id and the item's own counter alone; later calls return the stored id and change nothing; no other item's cells change |
| LocalIds.LocalIdStable | src/ir/item.rs:486-494 | once assigned, the local id is returned unchanged from any later state |
| LocalIds.LocalIdIdempotent | src/ir/item.rs:486-494 | a second call returns the same id and the same cells |
| LocalIds.FirstChildGetsOne | src/ir/item.rs:425-426 | the first child of a freshly created item gets local id 1 |
| LocalIds.LocalIdKeepsSound | src/ir/item.rs:486-494 | every local id stays at least 1 and below the parent's counter, and sibling ids stay distinct |
| LocalIds.LocalIdAboveSiblings | src/ir/item.rs:486-494 | a newly assigned local id is larger than every id a sibling already holds |
| LocalIds.SiblingLocalIdsDistinct | src/ir/item.rs:372-373 | two different siblings asked one after the other get different local ids |
| Targets.Chase | src/ir/item.rs:611-638 | returns the start when the start is annotated; otherwise follows type-reference and instantiation links to an item with no link; a revisited id is the debug assertion |
| Targets.NameTarget | src/ir/item.rs:611-638 | an annotated item or an item with no link is its own target; an unannotated item's target is never a type reference or instantiation |
| Targets.NameTargetFollowsLink | src/ir/item.rs:620-630 | an unannotated reference to an unannotated item has the same target as the item it refers to |
| Targets.NameTargetThroughAnnotated | src/ir/item.rs:615-637 | the annotation test reads only the starting item: an unannotated reference to an annotated item without a link stops at that item, and passes straight through one that has a link to an unannotated item |
| Targets.NameTargetIdempotent | src/ir/item.rs:611-638 | the target of a target is itself |
| Targets.NameTargetRankedOk | src/ir/item.rs:611-638 | when type-reference links are acyclic, the cycle assertion never fires |
| Overloads.FuncName | src/ir/item.rs:641-646 | a name exactly for function items, and that name is the function's declared name |
| Overloads.OverloadIndex | src/ir/item.rs:650-675 | none for non-functions and for parents that are not compound types; a constructor's first position among the constructors; otherwise present exactly when the function is a method |
| Overloads.MethodOverloadIndex | src/ir/item.rs:661-669 | a method's index is the number of same-named methods declared before it |
| Overloads.ConstructorIndexesDistinct | src/ir/item.rs:655-660 | two different constructors of one class get different indexes |
| Overloads.MethodIndexesDistinct | src/ir/item.rs:661-669 | two different same-named methods of one class get different indexes |
| Overloads.SuffixRecoversIndex | src/ir/item.rs:702-709 | a positive index is written in decimal and can be read back |
| Overloads.SuffixesDistinct | src/ir/item.rs:702-709 | index 0 and no index give no suffix; different indexes give different suffixes |
| Naming.ExposedId | src/ir/item.rs:776-792 | compound and enum types use their local id in decimal; every other item uses `id_` and its global id, which can be read back |
| Naming.BaseName | src/ir/item.rs:678-714 | an annotated item is named by the last element of its annotation path; a variable, a named module and a named type keep their declared names, with no cell changed; fails exactly for an unannotated resolved type reference; never touches a cached name |
| Naming.CollectNames | src/ir/item.rs:745-760 | fails only on a cycle; never touches a cached name |
| Naming.RealCanonicalName | src/ir/item.rs:727-774 | fails only on a cycle; never touches a cached name |
| Naming.CanonicalName | src/ir/item.rs:1402-1417 | a cache hit returns the cached name and changes nothing; a miss stores the computed name in the item's cache and leaves every other item's cache alone; it fails only on a cycle |
| NamingFacts.ExposedIdStable | src/ir/item.rs:776-792 | an exposed id, once computed, is the same in any later state |
| NamingFacts.BaseNameStable | src/ir/item.rs:678-714 | a base name, once computed, is the same in any later state |
| NamingFacts.CollectNamesStable | src/ir/item.rs:745-760 | the enclosing names, once computed, are the same in any later state |
| NamingFacts.RealCanonicalNameStable | src/ir/item.rs:718-726 | the canonical name, once computed, is the same in any later state |
| NamingFacts.RealCanonicalNameSettles | src/ir/item.rs:718-726 | naming an item a second time gives the same name without changing any cell |
| NamingFacts.CanonicalNameCacheTransparent | src/ir/item.rs:1402-1417 | the cached name is what `real_canonical_name` gives, with the options `canonical_name` uses |
| SoundIds.FreshIdsSound | src/ir/item.rs:423-425 | a store nothing has been named in has sound local ids |
| SoundIds.ExposedIdKeepsSound | src/ir/item.rs:776-792 | `exposed_id` keeps local ids sound |
| SoundIds.BaseNameKeepsSound | src/ir/item.rs:678-714 | `base_name` keeps local ids sound |
| SoundIds.CollectNamesKeepsSound | src/ir/item.rs:745-760 | collecting the enclosing names keeps local ids sound |
| SoundIds.RealCanonicalNameKeepsSound | src/ir/item.rs:727-774 | `real_canonical_name` keeps local ids sound |
| SoundIds.CacheWriteKeepsSound | src/ir/item.rs:1413-1415 | writing the name cache touches no local id or counter |
| SoundIds.CanonicalNameKeepsSound | src/ir/item.rs:1402-1417 | `canonical_name` keeps local ids sound |
| SoundIds.PathNamesKeepsSound | src/ir/item.rs:1452-1457 | naming the items of a path keeps local ids sound |
| SoundIds.CanonicalPathKeepsSound | src/ir/item.rs:1434-1462 | `canonical_path` keeps local ids sound |
| SoundIds.NamespaceAwareCanonicalPathKeepsSound | src/ir/item.rs:1421-1432 | `namespace_aware_canonical_path` keeps local ids sound |
| SoundIds.AnonymousSiblingsDistinctAfterNaming | src/ir/item.rs:695-700 | after naming any item of a fresh store, two anonymous sibling types still get different names |
| NamingFacts.CanonicalNameRankedOk | src/ir/item.rs:1402-1417 | with acyclic parent and type-reference links, `canonical_name` always produces a name |
| NamingFacts.ExposedIdsDistinct | src/ir/item.rs:776-792 | siblings named one after the other get different exposed ids, including one local and one global id |
| NamingFacts.AnonymousTypeName | src/ir/item.rs:695-700 | an anonymous compound or enum is `_bindgen_ty_` followed by the local id it now holds |
| NamingFacts.AnonymousSiblingTypesDistinct | src/ir/item.rs:695-700 | two anonymous sibling types get different base names |
| NamingFacts.AnonymousModuleName | src/ir/item.rs:684-691 | an anonymous module is `_bindgen_mod_id_` followed by its global id, which can be read back; no cell changes |
| NamingFacts.ConstructorBaseName | src/ir/item.rs:701-712 | the first constructor keeps the bare name; the constructor at position k > 0 gets k appended |
| NamingFacts.FreeFunctionBaseName | src/ir/item.rs:702-711 | a function outside a compound type, or listed in its parent neither as a constructor nor as a method, gets no overload suffix and keeps its declared name |
| NamingFacts.MethodBaseName | src/ir/item.rs:661-669 | a method that is not a constructor keeps its bare name when no same-named method precedes it, and otherwise gets the count of earlier namesakes as a decimal suffix |
| NamingFacts.OverloadedNamesDistinct | src/ir/item.rs:650-712 | overloaded constructors, or same-named methods, of one class get different base names |
| NamingFacts.BaseNameOfTargetOk | src/ir/item.rs:692-694 | `base_name` never panics on what `name_target` returns |
| NamingFacts.AnnotatedTargetName | src/ir/item.rs:731-739 | a target with an annotation path is named, unmangled, by the path's last element with C++ namespaces on and by the whole path joined with `_` otherwise; the naming options make no difference |
| NamingFacts.NamedParamIsBare | src/ir/item.rs:740-744 | a named template parameter keeps its bare name, unmangled, whatever the options |
| NamingFacts.TopLevelCanonicalName | src/ir/item.rs:746-772 | an item directly inside the root module is named by its mangled base name alone |
| NamingFacts.CollectNamesFollowAncestors | src/ir/item.rs:745-760 | without `within_namespaces`, the enclosing names are the non-empty base names of the targets of the ancestors the iterator yields, root excluded, in order |
| NamingFacts.CollectNamesFollowWalk | src/ir/item.rs:745-760 | the same correspondence at every step of the ancestor walk |
| NamingFacts.WithinNamespacesIsPrefix | src/ir/item.rs:749-753 | `within_namespaces` collects a prefix of the names collected without it |
| NamingFacts.WithinNamespacesFollowWalk | src/ir/item.rs:745-760 | with `within_namespaces`, the enclosing names are the non-empty base names of the targets of what the iterator yields before the first module other than the root, root excluded, in order |
| NamingFacts.WithinNamespacesWithoutModules | src/ir/item.rs:749-753 | when no module other than the root lies on the walk, `within_namespaces` gives exactly the result, names and cells, of the plain walk |
| NamingFacts.WithinNamespacesStopsAtModule | src/ir/item.rs:749-753 | with `within_namespaces`, a non-root enclosing module contributes no names |
| NamingFacts.NamedAfterTarget | src/ir/item.rs:726-730 | an item and its name target get the same canonical name, so a type reference is named like the type it refers to |
| NamingFacts.RealCanonicalNameRankedOk | src/ir/item.rs:727-774 | with acyclic parent and type-reference links, `real_canonical_name` always succeeds |
| Paths.KeepOnPath | src/ir/item.rs:1445-1451 | keeps exactly the target and the modules that are not inline, unless inline namespaces are kept; never grows; the first and last items are kept when the filter accepts them |
| Paths.KeepOnPathAppend | src/ir/item.rs:1445-1451 | filtering a concatenation is concatenating the filtered parts, so the kept items stay in the iterator's order |
| Paths.KeepOnPathSingle | src/ir/item.rs:1445-1451 | a single item is kept exactly when the filter accepts it |
| Paths.PathNames | src/ir/item.rs:1452-1457 | one name per kept item; fails only on a cycle |
| Paths.PathNamesAreNames | src/ir/item.rs:1452-1457 | each path name is its item's name within its namespace, read in any later state |
| Paths.CanonicalPath | src/ir/item.rs:1434-1462 | an annotated item's path is a root name followed by the annotation path; otherwise it names the target's kept ancestors lazily, as `Paths.WalkNames` does |
| Paths.WalkNames | src/ir/item.rs:1442-1458 | the iterator chain names each kept item before it steps to the next ancestor, so a panic while naming an item wins over a cycle further up; it succeeds only when the walk does |
| Paths.PathNamesAppend | src/ir/item.rs:1452-1457 | naming a concatenation names the first part, then the second from the cells the first leaves |
| Paths.WalkNamesAgree | src/ir/item.rs:1442-1458 | when the walk succeeds, the lazy chain gives exactly the names of the kept items among the yielded ancestors and the root |
| Paths.CanonicalPathNamesTargetFirst | src/ir/item.rs:1442-1458 | when naming the target panics and the target is not its own parent, that panic is what `canonical_path` reports, whatever lies further up |
| Paths.CanonicalPathNamesPathItems | src/ir/item.rs:1441-1461 | an unannotated item's path has one name per kept item (the target, its kept ancestors and the root), and names them outermost first, each by its name within its namespace |
| Paths.PathItemsStartAtTarget | src/ir/item.rs:1441-1451 | with a proper root, the kept items start at the target and end at the root |
| Paths.CanonicalPathEndsWithOwnName | src/ir/item.rs:1441-1461 | with a proper root, an unannotated item's path ends with its own name within its namespace |
| Paths.RootName | src/ir/item.rs:1436-1437 | the root module is called by its mangled name under either option |
| Paths.CanonicalPathStartsAtRoot | src/ir/item.rs:1434-1462 | with a proper root, every path starts with the root's mangled name |
| Paths.NamespaceAwareCanonicalPath | src/ir/item.rs:1421-1432 | with C++ namespaces on it is the canonical path itself; with them off the result has one element; an empty path is the panic |
| Paths.NamespaceAwareFromPath | src/ir/item.rs:1421-1432 | with C++ namespaces off: the path's last name when name namespacing is off, otherwise the path below the root joined with `_`; a failed or empty path is an error |
| Paths.NamespaceAwareJoinsItemsBelowRoot | src/ir/item.rs:1421-1432 | with a proper root, C++ namespaces off and name namespacing on, the one name of an unannotated item is the `_`-join of the names of its kept items strictly below the root, outermost first |
| Paths.NamespaceAwarePathOk | src/ir/item.rs:1421-1432 | with a proper root the panic cannot happen; with name namespacing off, the one element is the item's own name within its namespace |
| Toplevel.ToplevelFrom | src/ir/item.rs:520-537 | with C++ namespaces on, the loop answers whether the parent is the root; it can only loop forever with namespaces off |
| Toplevel.IsToplevel | src/ir/item.rs:514-538 | with C++ namespaces on there is always an answer, and a module other than the root is never top level |
| Toplevel.ToplevelWithNamespaces | src/ir/item.rs:514-538 | with C++ namespaces on, top level means directly inside the root and not a non-root module |
| Toplevel.ToplevelWithoutNamespaces | src/ir/item.rs:514-538 | with C++ namespaces off, top level means every ancestor of the parent is a module |
| Toplevel.StraySelfParentLoops | src/ir/item.rs:522-536 | a non-root module that is its own parent makes the loop spin |
| Fixtures.Sample | bindgen-integration/cpp/Test.h:5-24 | the sample store satisfies the store invariants and has a proper root |
| Fixtures.ConstructorNames | bindgen-integration/cpp/Test.h:9-11 | the two `Test` constructors are named `Test` and `Test1`; `name` keeps its name |
| Fixtures.AliasNames | bindgen-integration/cpp/Test.h:18-24 | without namespaces, `testing::TypeAlias` is `testing_TypeAlias` and the top-level alias is `TypeAlias`; a reference is named after its target |
| Fixtures.AliasPathWithNamespaces | bindgen-integration/cpp/Test.h:18-22 | with namespaces, the path is `root`, `testing`, `TypeAlias` and the canonical name is `TypeAlias` |
| Fixtures.FlattenedAliasPath | bindgen-integration/cpp/Test.h:18-22 | without namespaces, the namespace-aware path is `testing_TypeAlias` |
| Fixtures.LastNameAliasPath | bindgen-integration/cpp/Test.h:18-22 | with name namespacing off, the namespace-aware path is `TypeAlias` |
| Fixtures.SampleToplevel | bindgen-integration/cpp/Test.h:10-22 | `testing::TypeAlias` is top level only without namespaces; a constructor is not top level with namespaces on or off |

## Left out

- Parsing from libclang (`item.rs:866-1399`) is not modelled: it builds the store, and the model takes the store as given.
- `Trace`, `CanDeriveDebug`, `CanDeriveDefault` and `CanDeriveCopy` (`item.rs:204-346`) are not modelled: they are not part of naming.
- `is_hidden` and `is_opaque` (`item.rs:574-588`) are not modelled: they read annotations other than `replaces`.
- The `DotAttributes` output and the `DebugOnlyItemSet` `cfg_if` are not modelled. The model always behaves like a debug build, where the cycle assertions are present; a release build would loop instead.
- Layout and bitfields are not modelled.
- `set_parent_for_replacement`, `comment`, `expect_type` and the other accessors are not modelled: they do not name anything.
- `rust_mangle` lives outside this file and is not part of this model. It is an arbitrary function in `Context`; the fixtures take it to be the identity.
- `is_named` is defined in `ty.rs`, which is not part of this model. It is the `Named` type kind here.
- Type kinds other than the ones naming looks at are collapsed into `Other`.
- Template instantiations are reduced to the id of their definition.
- Options other than the three naming switches are not modelled.
- Local ids and counters are unbounded naturals; `usize` overflow of the child counter is not modelled.
- `Naming.CollectNames`: the root filter of `real_canonical_name` only matters when the root is not its own parent. The lemmas that need a proper root assume one, so that branch is not exercised by them.
- `Toplevel.IsToplevel`: the source never returns on a cycle of modules when namespaces are off. The model reports `ToplevelLoop` once it revisits an id.
- `ItemId::canonical_name` and the other forwarding impls on `ItemId` (`item.rs:164-200`) are not separate members: they resolve the id and call the `Item` method.
- The `in_codegen_phase` debug assertions are not modelled: the model has no phases.
- `Items.Closed` is required of the whole store, while the source only needs the items a call actually resolves to exist. `is_toplevel` in particular reads parents with `resolve_item_fallible` and tolerates a missing one; the model does not cover stores with dangling ids.

=== FILE: ancestors.dfy ===
/** `ItemAncestorsIter` (src/ir/item.rs:92-132): starting from an item, yield
    it, then its parent, and so on, stopping at (and not yielding) the item
    that is its own parent. In debug builds the iterator remembers the ids it
    has yielded and asserts that none comes back; that assertion is the
    `AncestorCycle` error here. */
module AncestorWalk {
  import opened Results
  import opened Items

  /** The ids still to be yielded by an iterator standing at `id` that has
      already yielded the ids in `seen`. */
  function Walk(ctx: Context, id: ItemId, seen: set<ItemId>): (r: Result<seq<ItemId>, Error>)
    requires Closed(ctx) && id in ctx.items
    ensures r.Err? ==> r.error.AncestorCycle?
    ensures ctx.items[id].parent == id <==> r == Ok([])
    ensures r.Ok? && |r.value| > 0 ==> r.value[0] == id
    decreases ctx.items.Keys - seen
  {
    assert ItemClosed(ctx, id);
    var item := ctx.items[id];
    if item.parent == id then Ok([])
    else if id in seen then Err(AncestorCycle(id))
    else
      match Walk(ctx, item.parent, seen + {id})
      case Err(e) => Err(e)
      case Ok(rest) => Ok([id] + rest)
  }

  /** What a successful walk yields: items of the store, none of them already
      yielded nor its own parent, each the parent of the one before, no id
      twice, and ending where an item is its own parent. */
  predicate WellWalked(ctx: Context, id: ItemId, seen: set<ItemId>, walked: seq<ItemId>)
    requires id in ctx.items
  {
    && (|walked| > 0 ==> walked[0] == id)
    && (forall i :: 0 <= i < |walked| ==>
          walked[i] in ctx.items && walked[i] !in seen && ctx.items[walked[i]].parent != walked[i])
    && (forall i :: 0 <= i < |walked| - 1 ==> walked[i + 1] == ctx.items[walked[i]].parent)
    && (forall i, j :: 0 <= i < j < |walked| ==> walked[i] != walked[j])
    && StopsAt(ctx, id, walked)
  }

  lemma {:induction false} WalkShape(ctx: Context, id: ItemId, seen: set<ItemId>)
    requires Closed(ctx) && id in ctx.items && Walk(ctx, id, seen).Ok?
    ensures WellWalked(ctx, id, seen, Walk(ctx, id, seen).value)
    decreases ctx.items.Keys - seen
  {
    assert ItemClosed(ctx, id);
    var p := ctx.items[id].parent;
    if p != id {
      WalkShape(ctx, p, seen + {id});
      var rest := Walk(ctx, p, seen + {id}).value;
      assert id !in seen;
      assert Walk(ctx, id, seen).value == [id] + rest;
      WalkCons(ctx, id, seen, rest);
    }
  }

  /** One step of the walk keeps `WellWalked`. */
  lemma WalkCons(ctx: Context, id: ItemId, seen: set<ItemId>, rest: seq<ItemId>)
    requires id in ctx.items && id !in seen
    requires ctx.items[id].parent != id && ctx.items[id].parent in ctx.items
    requires WellWalked(ctx, ctx.items[id].parent, seen + {id}, rest)
    ensures WellWalked(ctx, id, seen, [id] + rest)
  {
    var p := ctx.items[id].parent;
    var v := [id] + rest;
    assert forall i :: 1 <= i < |v| ==> v[i] == rest[i - 1];
    assert StopPoint(ctx, id, v) == StopPoint(ctx, p, rest);
    forall i, j | 0 <= i < j < |v|
      ensures v[i] != v[j]
    {
      if i == 0 {
        assert rest[j - 1] !in seen + {id};
      } else {
        assert rest[i - 1] != rest[j - 1];
      }
    }
  }

  /** The item the iterator stands at once it has yielded `walked` starting
      from `id`: where the walk stopped. */
  function StopPoint(ctx: Context, id: ItemId, walked: seq<ItemId>): ItemId
    requires id in ctx.items
    requires forall i :: 0 <= i < |walked| ==> walked[i] in ctx.items
  {
    if |walked| == 0 then id else ctx.items[walked[|walked| - 1]].parent
  }

  /** The walk ended at an item that is its own parent. */
  predicate StopsAt(ctx: Context, id: ItemId, walked: seq<ItemId>)
    requires id in ctx.items
  {
    (forall i :: 0 <= i < |walked| ==> walked[i] in ctx.items) &&
    var s := StopPoint(ctx, id, walked);
    s in ctx.items && ctx.items[s].parent == s
  }

  /** `item.ancestors(ctx)` collected into a vector. */
  function Ancestors(ctx: Context, id: ItemId): (r: Result<seq<ItemId>, Error>)
    requires Closed(ctx) && id in ctx.items
  {
    Walk(ctx, id, {})
  }

  /** A parent relation that has a ranking never trips the cycle assertion. */
  lemma {:induction false} WalkRankedOk(ctx: Context, rank: map<ItemId, nat>, id: ItemId, seen: set<ItemId>)
    requires Closed(ctx) && id in ctx.items && ParentRanked(ctx, rank)
    requires forall s :: s in seen ==> s in rank && rank[s] > rank[id]
    ensures Walk(ctx, id, seen).Ok?
    decreases rank[id]
  {
    assert ItemClosed(ctx, id);
    var p := ctx.items[id].parent;
    if p != id {
      assert id !in seen;
      WalkRankedOk(ctx, rank, p, seen + {id});
    }
  }

  lemma AncestorsRankedOk(ctx: Context, rank: map<ItemId, nat>, id: ItemId)
    requires Closed(ctx) && id in ctx.items && ParentRanked(ctx, rank)
    ensures Ancestors(ctx, id).Ok?
  {
    WalkRankedOk(ctx, rank, id, {});
  }

  /** With a proper root, the walk ends at the root and never yields it. */
  lemma AncestorsStopAtRoot(ctx: Context, id: ItemId)
    requires Closed(ctx) && RootOk(ctx) && id in ctx.items && Ancestors(ctx, id).Ok?
    ensures WellWalked(ctx, id, {}, Ancestors(ctx, id).value)
    ensures StopPoint(ctx, id, Ancestors(ctx, id).value) == ctx.root
    ensures ctx.root !in Ancestors(ctx, id).value
  {
    WalkShape(ctx, id, {});
  }
}

=== FILE: fixtures.dfy ===
/** A concrete item graph: the `Test` class, the `testing` namespace and the
    two `TypeAlias` typedefs of bindgen-integration/cpp/Test.h, with
    `rust_mangle` as the identity (none of these names is a Rust keyword). */
module Fixtures {
  import opened Results
  import opened Items
  import opened Targets
  import opened Naming
  import opened Paths
  import opened Toplevel
  import opened NamingFacts
  import opened AncestorWalk
  import opened Strings

  const Root: ItemId := 0
  const TestClass: ItemId := 1
  const TestFromInt: ItemId := 2
  const TestFromDouble: ItemId := 3
  const NameMethod: ItemId := 4
  const CountdownMethod: ItemId := 5
  const Testing: ItemId := 6
  const InnerAlias: ItemId := 7
  const OuterAlias: ItemId := 8
  const AliasRef: ItemId := 9

  function Plain(id: ItemId, parent: ItemId, kind: ItemKind): Item {
    Item(id, parent, kind, Annotations(None))
  }

  /** The items of the sample, by id. */
  function SampleItem(k: ItemId): Item {
    match k
    case 0 => Plain(Root, Root, Module(Some("root"), false))
    case 1 => Plain(TestClass, Root,
                Type(Ty(Some("Test"), Comp([TestFromInt, TestFromDouble], [NameMethod, CountdownMethod]))))
    case 2 => Plain(TestFromInt, TestClass, Function("Test"))
    case 3 => Plain(TestFromDouble, TestClass, Function("Test"))
    case 4 => Plain(NameMethod, TestClass, Function("name"))
    case 5 => Plain(CountdownMethod, TestClass, Function("countdown"))
    case 6 => Plain(Testing, Root, Module(Some("testing"), false))
    case 7 => Plain(InnerAlias, Testing, Type(Ty(Some("TypeAlias"), Other)))
    case 8 => Plain(OuterAlias, Root, Type(Ty(Some("TypeAlias"), Other)))
    case _ => Plain(AliasRef, Root, Type(Ty(None, ResolvedTypeRef(InnerAlias))))
  }

  const SampleSize := 10

  /** The sample store: ids 0 to 9, with the root module at 0. */
  function Sample(options: Options): (ctx: Context)
    ensures Closed(ctx) && RootOk(ctx)
  {
    var ctx := Context(map k: ItemId | k < SampleSize :: SampleItem(k), Root, options, s => s);
    SampleStoreClosed(ctx);
    ctx
  }

  lemma SampleStoreClosed(ctx: Context)
    requires ctx.items == (map k: ItemId | k < SampleSize :: SampleItem(k)) && ctx.root == Root
    ensures Closed(ctx) && RootOk(ctx)
  {
    forall k | k in ctx.items
      ensures ItemClosed(ctx, k) && (ctx.items[k].parent == k ==> k == Root)
    {
      SampleItemClosed(ctx, k);
    }
    assert ItemClosed(ctx, Root);
  }

  lemma SampleItemClosed(ctx: Context, k: ItemId)
    requires ctx.items == map k: ItemId | k < SampleSize :: SampleItem(k)
    requires k < SampleSize
    ensures ItemClosed(ctx, k) && (ctx.items[k].parent == k ==> k == Root)
  {
    match k
    case 0 =>
    case 1 =>
    case 2 =>
    case 3 =>
    case 4 =>
    case 5 =>
    case 6 =>
    case 7 =>
    case 8 =>
    case _ =>
  }

  const NamespacesOn := Options(true, false, false)
  const NamespacesOff := Options(false, false, false)
  const NamespacingOff := Options(false, true, false)

  /** The two constructors of `Test` are `Test` and `Test1`; the methods
      keep their names. */
  lemma ConstructorNames(options: Options)
    ensures var ctx := Sample(options);
            && BaseName(ctx, Fresh(ctx), TestFromInt).value.value == "Test"
            && BaseName(ctx, Fresh(ctx), TestFromDouble).value.value == "Test1"
            && BaseName(ctx, Fresh(ctx), NameMethod).value.value == "name"
  {
    var ctx := Sample(options);
  }

  /** The result is a success whose value is `v`. */
  predicate Yields<T(==)>(r: Result<Out<T>, Error>, v: T) {
    r.Ok? && r.value.value == v
  }

  lemma NoSeen(k: ItemId)
    ensures {} + {k} == {k}
  {
  }

  /** Without namespaces, the alias inside `testing` is `testing_TypeAlias`,
      the one at the top is `TypeAlias`, and a reference to the inner one is
      named after its target. */
  lemma AliasNames()
    ensures var ctx := Sample(NamespacesOff);
            && Yields(RealCanonicalName(ctx, Fresh(ctx), InnerAlias, NameOptions(false)), "testing_TypeAlias")
            && Yields(RealCanonicalName(ctx, Fresh(ctx), OuterAlias, NameOptions(false)), "TypeAlias")
            && Yields(RealCanonicalName(ctx, Fresh(ctx), AliasRef, NameOptions(false)), "testing_TypeAlias")
  {
    var ctx := Sample(NamespacesOff);
    var cells := Fresh(ctx);
    InnerAliasName(ctx, cells);
    Lookup(NamespacesOff, OuterAlias);
    Lookup(NamespacesOff, Root);
    TopLevelCanonicalName(ctx, cells, OuterAlias, NameOptions(false));
    AliasRefTarget(ctx);
    NamedAfterTarget(ctx, cells, AliasRef, NameOptions(false));
  }

  lemma AliasRefTarget(ctx: Context)
    requires ctx == Sample(NamespacesOff)
    ensures NameTarget(ctx, AliasRef) == Ok(InnerAlias)
  {
    Lookup(NamespacesOff, AliasRef);
    Lookup(NamespacesOff, InnerAlias);
    NoSeen(AliasRef);
    assert Chase(ctx, AliasRef, InnerAlias, {AliasRef}) == Ok(InnerAlias);
    assert Chase(ctx, AliasRef, AliasRef, {}) == Chase(ctx, AliasRef, InnerAlias, {AliasRef});
  }

  lemma InnerAliasName(ctx: Context, cells: Cells)
    requires ctx == Sample(NamespacesOff) && cells == Fresh(ctx)
    ensures RealCanonicalName(ctx, cells, InnerAlias, NameOptions(false)) == Ok(Out("testing_TypeAlias", cells))
  {
    Lookup(NamespacesOff, InnerAlias);
    InnerAliasBase(ctx, cells);
    TestingCollected(ctx, cells);
    NamedUnder(ctx, cells, InnerAlias, ["testing"], "TypeAlias", NameOptions(false));
    assert Reverse(["testing"]) + ["TypeAlias"] == ["testing", "TypeAlias"];
    JoinPair("testing", "TypeAlias", "_");
    AliasJoined();
  }

  lemma InnerAliasBase(ctx: Context, cells: Cells)
    requires ctx == Sample(NamespacesOff) && cells == Fresh(ctx)
    ensures InnerAlias in ctx.items && NameTarget(ctx, InnerAlias) == Ok(InnerAlias)
    ensures BaseName(ctx, cells, InnerAlias) == Ok(Out("TypeAlias", cells))
  {
    Lookup(NamespacesOff, InnerAlias);
    Lookup(NamespacesOff, Testing);
  }

  /** An item that is its own target, named `base` and declared in a parent
      whose enclosing names are `outer`, innermost first. */
  lemma NamedUnder(ctx: Context, cells: Cells, id: ItemId, outer: seq<string>, base: string, opt: NameOptions)
    requires Closed(ctx) && Covers(ctx, cells) && id in ctx.items && !Annotated(ctx, id)
    requires NameTarget(ctx, id) == Ok(id) && !IsNamedParam(ctx.items[id].kind)
    requires BaseName(ctx, cells, id) == Ok(Out(base, cells)) && base != ""
    requires ctx.items[id].parent in ctx.items
    requires CollectNames(ctx, cells, ctx.items[id].parent, {}, opt.withinNamespaces) == Ok(Out(outer, cells))
    ensures RealCanonicalName(ctx, cells, id, opt) == Ok(Out(ctx.mangle(Join(Reverse(outer) + [base], "_")), cells))
  {
    assert ItemClosed(ctx, id);
  }

  lemma TestingCollected(ctx: Context, cells: Cells)
    requires ctx == Sample(NamespacesOff) && cells == Fresh(ctx)
    ensures CollectNames(ctx, cells, Testing, {}, false) == Ok(Out(["testing"], cells))
  {
    Lookup(NamespacesOff, Testing);
    Lookup(NamespacesOff, Root);
    assert NameTarget(ctx, Testing) == Ok(Testing);
    NoSeen(Testing);
    assert BaseName(ctx, cells, Testing) == Ok(Out("testing", cells));
    assert CollectNames(ctx, cells, Root, {Testing}, false) == Ok(Out([], cells));
    assert ["testing"] + [] == ["testing"];
  }

  lemma Lookup(options: Options, k: ItemId)
    requires k < SampleSize
    ensures k in Sample(options).items && Sample(options).items[k] == SampleItem(k)
  {
  }

  lemma InnerAliasAncestors(options: Options)
    ensures Ancestors(Sample(options), InnerAlias) == Ok([InnerAlias, Testing])
  {
    var ctx := Sample(options);
    Lookup(options, InnerAlias);
    Lookup(options, Testing);
    Lookup(options, Root);
    NoSeen(InnerAlias);
    assert {InnerAlias} + {Testing} == {InnerAlias, Testing};
    assert Walk(ctx, Root, {InnerAlias, Testing}) == Ok([]);
    assert [Testing] + [] == [Testing] && [InnerAlias] + [Testing] == [InnerAlias, Testing];
    assert Walk(ctx, Testing, {InnerAlias}) == Ok([Testing]);
  }

  /** Within their namespaces, the inner alias, `testing` and the root are
      called by their own names. */
  lemma NamesWithinNamespaces(options: Options)
    ensures var ctx := Sample(options);
            && RealCanonicalName(ctx, Fresh(ctx), InnerAlias, NameOptions(true)) == Ok(Out("TypeAlias", Fresh(ctx)))
            && RealCanonicalName(ctx, Fresh(ctx), Testing, NameOptions(true)) == Ok(Out("testing", Fresh(ctx)))
            && RealCanonicalName(ctx, Fresh(ctx), Root, NameOptions(true)) == Ok(Out("root", Fresh(ctx)))
  {
    var ctx := Sample(options);
    Lookup(options, InnerAlias);
    Lookup(options, Testing);
    Lookup(options, Root);
    NamedInNamespace(ctx, Fresh(ctx), InnerAlias, "TypeAlias");
    NamedInNamespace(ctx, Fresh(ctx), Testing, "testing");
    NamedInNamespace(ctx, Fresh(ctx), Root, "root");
  }

  /** An unannotated item with a declared name whose parent is a module or
      is the root is called by that name within its namespace. */
  lemma NamedInNamespace(ctx: Context, cells: Cells, id: ItemId, name: string)
    requires Closed(ctx) && RootOk(ctx) && Covers(ctx, cells) && id in ctx.items && !Annotated(ctx, id)
    requires ctx.items[id].kind == Module(Some(name), false) || ctx.items[id].kind == Type(Ty(Some(name), Other))
    requires ctx.items[id].parent in ctx.items && ctx.items[ctx.items[id].parent].kind.Module?
    requires ctx.mangle(name) == name && name != ""
    ensures RealCanonicalName(ctx, cells, id, NameOptions(true)) == Ok(Out(name, cells))
  {
    assert ItemClosed(ctx, id);
    var p := ctx.items[id].parent;
    assert ItemClosed(ctx, p);
    assert CollectNames(ctx, cells, p, {}, true) == Ok(Out([], cells));
    assert Reverse<string>([]) + [name] == [name];
  }

  lemma InnerAliasPathNames(options: Options)
    ensures var ctx := Sample(options);
            && KeepOnPath(ctx, InnerAlias, [InnerAlias, Testing, Root]) == [InnerAlias, Testing, Root]
            && PathNames(ctx, Fresh(ctx), [InnerAlias, Testing, Root]) ==
               Ok(Out(["TypeAlias", "testing", "root"], Fresh(ctx)))
  {
    InnerAliasKept(options);
    InnerAliasNamed(options);
  }

  lemma InnerAliasKept(options: Options)
    ensures var ctx := Sample(options);
            KeepOnPath(ctx, InnerAlias, [InnerAlias, Testing, Root]) == [InnerAlias, Testing, Root]
  {
    var ctx := Sample(options);
    Lookup(options, InnerAlias);
    Lookup(options, Testing);
    Lookup(options, Root);
    var ks := [InnerAlias, Testing, Root];
    assert ks[1..] == [Testing, Root] && ks[1..][1..] == [Root] && ks[1..][1..][1..] == [];
  }

  lemma InnerAliasNamed(options: Options)
    ensures var ctx := Sample(options);
            PathNames(ctx, Fresh(ctx), [InnerAlias, Testing, Root]) ==
            Ok(Out(["TypeAlias", "testing", "root"], Fresh(ctx)))
  {
    var ctx := Sample(options);
    var cells := Fresh(ctx);
    Lookup(options, InnerAlias);
    Lookup(options, Testing);
    Lookup(options, Root);
    NamesWithinNamespaces(options);
    PathNamesCons(ctx, cells, Root, [], "root", []);
    assert [Root] + [] == [Root] && ["root"] + [] == ["root"];
    PathNamesCons(ctx, cells, Testing, [Root], "testing", ["root"]);
    assert [Testing] + [Root] == [Testing, Root] && ["testing"] + ["root"] == ["testing", "root"];
    PathNamesCons(ctx, cells, InnerAlias, [Testing, Root], "TypeAlias", ["testing", "root"]);
    assert [InnerAlias] + [Testing, Root] == [InnerAlias, Testing, Root];
    assert ["TypeAlias"] + ["testing", "root"] == ["TypeAlias", "testing", "root"];
  }

  /** With namespaces, the inner alias's path is `root::testing::TypeAlias`
      and its canonical name is just `TypeAlias`. */
  lemma AliasPathWithNamespaces()
    ensures var ctx := Sample(NamespacesOn);
            && Yields(CanonicalName(ctx, Fresh(ctx), InnerAlias), "TypeAlias")
            && Yields(CanonicalPath(ctx, Fresh(ctx), InnerAlias), ["root", "testing", "TypeAlias"])
  {
    var ctx := Sample(NamespacesOn);
    Lookup(NamespacesOn, InnerAlias);
    NamesWithinNamespaces(NamespacesOn);
    InnerAliasPath(NamespacesOn);
  }

  lemma InnerAliasPath(options: Options)
    ensures var ctx := Sample(options);
            && InnerAlias in ctx.items
            && CanonicalPath(ctx, Fresh(ctx), InnerAlias) == Ok(Out(["root", "testing", "TypeAlias"], Fresh(ctx)))
  {
    var ctx := Sample(options);
    InnerAliasIsPlain(options);
    InnerAliasAncestors(options);
    AncestorsInStore(ctx, InnerAlias);
    InnerAliasPathNames(options);
    assert [InnerAlias, Testing] + [Root] == [InnerAlias, Testing, Root];
    PathFromNames(ctx, Fresh(ctx), InnerAlias, [InnerAlias, Testing], [InnerAlias, Testing, Root],
                  ["TypeAlias", "testing", "root"]);
    ReversedAliasPath();
  }

  lemma InnerAliasIsPlain(options: Options)
    ensures var ctx := Sample(options);
            && InnerAlias in ctx.items && !Annotated(ctx, InnerAlias)
            && NameTarget(ctx, InnerAlias) == Ok(InnerAlias)
  {
    Lookup(options, InnerAlias);
  }

  lemma ReversedAliasPath()
    ensures Reverse(["TypeAlias", "testing", "root"]) == ["root", "testing", "TypeAlias"]
  {
  }

  lemma JoinPair(a: string, b: string, sep: string)
    ensures Join([a, b], sep) == a + sep + b
  {
    assert [a, b][..1] == [a];
  }

  /** Without namespaces the code generator sees `testing_TypeAlias`. */
  lemma FlattenedAliasPath()
    ensures var ctx := Sample(NamespacesOff);
            Yields(NamespaceAwareCanonicalPath(ctx, Fresh(ctx), InnerAlias), ["testing_TypeAlias"])
  {
    var ctx := Sample(NamespacesOff);
    InnerAliasPath(NamespacesOff);
    AliasJoined();
    FlattenedTriple(ctx, Fresh(ctx), InnerAlias, "root", "testing", "TypeAlias", "testing_TypeAlias");
  }

  lemma AliasJoined()
    ensures "testing" + "_" + "TypeAlias" == "testing_TypeAlias"
  {
  }

  lemma FlattenedTriple(ctx: Context, cells: Cells, id: ItemId, a: string, b: string, c: string, joined: string)
    requires Closed(ctx) && Covers(ctx, cells) && id in ctx.items
    requires !ctx.options.enableCxxNamespaces && !ctx.options.disableNameNamespacing
    requires CanonicalPath(ctx, cells, id) == Ok(Out([a, b, c], cells))
    requires b + "_" + c == joined
    ensures NamespaceAwareCanonicalPath(ctx, cells, id) == Ok(Out([joined], cells))
  {
    NamespaceAwareFromPath(ctx, cells, id);
    assert [a, b, c][1..] == [b, c];
    JoinPair(b, c, "_");
  }

  /** With name namespacing off it sees `TypeAlias` alone. */
  lemma LastNameAliasPath()
    ensures var ctx := Sample(NamespacingOff);
            Yields(NamespaceAwareCanonicalPath(ctx, Fresh(ctx), InnerAlias), ["TypeAlias"])
  {
    InnerAliasPath(NamespacingOff);
  }

  /** `testing::TypeAlias` is top level only without namespaces; a
      constructor of `Test` never is. */
  lemma SampleToplevel()
    ensures IsToplevel(Sample(NamespacesOff), InnerAlias) == Ok(true)
    ensures IsToplevel(Sample(NamespacesOn), InnerAlias) == Ok(false)
    ensures IsToplevel(Sample(NamespacesOff), TestFromInt) == Ok(false)
    ensures IsToplevel(Sample(NamespacesOn), TestFromInt) == Ok(false)
  {
    Lookup(NamespacesOff, InnerAlias);
    Lookup(NamespacesOff, Testing);
    Lookup(NamespacesOff, TestFromInt);
    Lookup(NamespacesOff, TestClass);
    Lookup(NamespacesOff, Root);
    Lookup(NamespacesOn, InnerAlias);
    Lookup(NamespacesOn, Testing);
    Lookup(NamespacesOn, TestFromInt);
    Lookup(NamespacesOn, TestClass);
    NoSeen(Testing);
    assert ToplevelFrom(Sample(NamespacesOff), Root, {Testing}) == Ok(true);
  }
}

=== FILE: items.dfy ===
/** The item graph of bindgen's intermediate representation (src/ir/item.rs).

    Every item has an id, a parent id and a kind; the root module is its own
    parent. The Rust `Item` mixes immutable data with three `Cell`s (the lazily
    assigned local id, the next local id to hand to a child, and the cached
    canonical name). The model keeps the immutable part in `Context` and the
    cells in a separate `Cells` map that the naming operations thread through
    as explicit state. */
module Items {
  import opened Results

  type ItemId = nat

  /** The type kinds the naming layer distinguishes. `Comp` carries the
      constructor ids and the method signature ids, in declaration order. */
  datatype TypeKind =
    | ResolvedTypeRef(inner: ItemId)
    | TemplateInstantiation(definition: ItemId)
    | Comp(constructors: seq<ItemId>, methods: seq<ItemId>)
    | Enum
    | Named
    | Other

  /** A type: its optional spelling and its kind. */
  datatype Ty = Ty(name: Option<string>, kind: TypeKind)

  datatype ItemKind =
    | Module(moduleName: Option<string>, isInline: bool)
    | Type(ty: Ty)
    | Function(funcName: string)
    | Var(varName: string)

  /** Only the `replaces` annotation (`use_instead_of`) affects naming. */
  datatype Annotations = Annotations(useInsteadOf: Option<seq<string>>)

  datatype Item = Item(id: ItemId, parent: ItemId, kind: ItemKind, annotations: Annotations)

  /** The three configuration switches the naming layer reads. */
  datatype Options = Options(
    enableCxxNamespaces: bool,
    disableNameNamespacing: bool,
    conservativeInlineNamespaces: bool)

  /** The immutable part of `BindgenContext`: the item store, the root module's
      id, the options, and `rust_mangle`, which lives in a file that is not part
      of this model and is therefore a parameter. */
  datatype Context = Context(
    items: map<ItemId, Item>,
    root: ItemId,
    options: Options,
    mangle: string -> string)

  /** The mutable cells of one item. */
  datatype ItemCells = ItemCells(
    localId: Option<nat>,
    nextChildLocalId: nat,
    canonicalNameCache: Option<string>)

  type Cells = map<ItemId, ItemCells>

  /** A value together with the cells after computing it. */
  datatype Out<T> = Out(value: T, cells: Cells)

  /** The panics of the naming layer: the two debug cycle assertions, the
      `panic!` on an unchased type reference, the endless loop of
      `is_toplevel` on a parent cycle, and the `unwrap` or slice of an empty
      canonical path. */
  datatype Error =
    | AncestorCycle(at: ItemId)
    | NameTargetCycle(at: ItemId)
    | UnresolvedTypeRef(at: ItemId)
    | ToplevelLoop(at: ItemId)
    | EmptyPath(at: ItemId)

  /** `Item::new`: an item may be its own parent only if it is a module; a
      fresh item has no local id, hands out local id 1 to its first child and
      has no cached name. */
  function NewItem(id: ItemId, annotations: Option<Annotations>, parent: ItemId, kind: ItemKind): (r: (Item, ItemCells))
    requires id != parent || kind.Module?
    ensures r.0.id == id && r.0.parent == parent && r.0.kind == kind
    ensures r.0.parent == r.0.id ==> r.0.kind.Module?
    ensures annotations.None? ==> r.0.annotations.useInsteadOf.None?
    ensures annotations.Some? ==> r.0.annotations == annotations.value
    ensures r.1 == FreshCells()
  {
    var ann := match annotations case Some(a) => a case None => Annotations(None);
    (Item(id, parent, kind, ann), FreshCells())
  }

  /** Adding a new item under an unused id to a closed store whose local ids
      are sound keeps both: the item's parent is itself or already present,
      its references point into the store, and its cells hold no id yet, so
      no sibling's id and no counter bound is disturbed. */
  lemma NewItemKeepsStoreSound(ctx: Context, cells: Cells, id: ItemId, annotations: Option<Annotations>,
                               parent: ItemId, kind: ItemKind)
    requires Closed(ctx) && Covers(ctx, cells) && LocalIdsSound(ctx, cells)
    requires id !in ctx.items && (parent == id || parent in ctx.items) && (id != parent || kind.Module?)
    requires KindClosed(ctx.items, kind)
    requires annotations.Some? && annotations.value.useInsteadOf.Some? ==> |annotations.value.useInsteadOf.value| > 0
    ensures var n := NewItem(id, annotations, parent, kind);
            var ctx' := ctx.(items := ctx.items[id := n.0]);
            var cells' := cells[id := n.1];
            && Closed(ctx') && Covers(ctx', cells') && LocalIdsSound(ctx', cells')
  {
    var n := NewItem(id, annotations, parent, kind);
    var ctx' := ctx.(items := ctx.items[id := n.0]);
    var cells' := cells[id := n.1];
    forall k | k in ctx'.items
      ensures ItemClosed(ctx', k)
    {
      if k != id {
        assert ItemClosed(ctx, k);
        KindClosedGrows(ctx.items, id, n.0, ctx.items[k].kind);
      } else {
        KindClosedGrows(ctx.items, id, n.0, kind);
      }
    }
    forall k | k in ctx'.items
      ensures ItemLocalIdSound(ctx', cells', k)
    {
      if k != id {
        assert ItemLocalIdSound(ctx, cells, k);
        assert ItemClosed(ctx, k);
      }
    }
    forall a, b
      ensures SiblingIdsDiffer(ctx', cells', a, b)
    {
      assert SiblingIdsDiffer(ctx, cells, a, b);
    }
  }

  lemma KindClosedGrows(items: map<ItemId, Item>, id: ItemId, it: Item, kind: ItemKind)
    requires id !in items && KindClosed(items, kind)
    ensures KindClosed(items[id := it], kind)
  {
  }

  /** The cells of a new item: no local id, the first child gets 1, no
      cached name. */
  function FreshCells(): ItemCells {
    ItemCells(None, 1, None)
  }

  /** The cells of a whole store before any naming: every item fresh. */
  function Fresh(ctx: Context): (r: Cells)
    ensures Covers(ctx, r)
    ensures forall k :: k in ctx.items ==> r[k] == FreshCells()
  {
    map k | k in ctx.items.Keys :: FreshCells()
  }

  /** The item a `ResolvedTypeRef` or `TemplateInstantiation` leads to when
      looking for a naming target. */
  function LinkOf(kind: ItemKind): Option<ItemId>
  {
    match kind
    case Type(Ty(_, ResolvedTypeRef(inner))) => Some(inner)
    case Type(Ty(_, TemplateInstantiation(definition))) => Some(definition)
    case _ => None
  }

  predicate IsNamedParam(kind: ItemKind) {
    kind.Type? && kind.ty.kind.Named?
  }

  predicate IsCompOrEnum(kind: ItemKind) {
    kind.Type? && (kind.ty.kind.Comp? || kind.ty.kind.Enum?)
  }

  predicate Annotated(ctx: Context, k: ItemId)
    requires k in ctx.items
  {
    ctx.items[k].annotations.useInsteadOf.Some?
  }

  /** The references of an item's kind stay inside the store, and methods of
      a compound type are functions (`expect_function`). */
  predicate KindClosed(items: map<ItemId, Item>, kind: ItemKind) {
    && (LinkOf(kind).Some? ==> LinkOf(kind).value in items)
    && (kind.Type? && kind.ty.kind.Comp? ==>
          && (forall c :: c in kind.ty.kind.constructors ==> c in items)
          && (forall m :: m in kind.ty.kind.methods ==> m in items && items[m].kind.Function?))
  }

  predicate ItemClosed(ctx: Context, k: ItemId)
    requires k in ctx.items
  {
    var it := ctx.items[k];
    && it.id == k
    && it.parent in ctx.items
    && (it.parent == k ==> it.kind.Module?)
    && (it.annotations.useInsteadOf.Some? ==> |it.annotations.useInsteadOf.value| > 0)
    && KindClosed(ctx.items, it.kind)
  }

  /** What `resolve_item`, `expect_function` and the `unwrap` on a
      `use_instead_of` path demand of the store: every id it follows exists,
      and every item satisfies the assertion of `Item::new`. */
  predicate Closed(ctx: Context) {
    && ctx.root in ctx.items
    && forall k {:trigger ItemClosed(ctx, k)} :: k in ctx.items ==> ItemClosed(ctx, k)
  }

  /** The root module: its own parent, the only such item, a plain
      (non-inline), unannotated module. */
  predicate RootOk(ctx: Context) {
    && ctx.root in ctx.items
    && ctx.items[ctx.root].parent == ctx.root
    && ctx.items[ctx.root].kind.Module?
    && !ctx.items[ctx.root].kind.isInline
    && ctx.items[ctx.root].annotations.useInsteadOf.None?
    && forall k :: k in ctx.items && ctx.items[k].parent == k ==> k == ctx.root
  }

  /** Every item has its cells. */
  predicate Covers(ctx: Context, cells: Cells) {
    forall k :: k in ctx.items ==> k in cells
  }

  /** `b` is a later state than `a`: a local id, once set, stays; counters
      only grow; a cached name, once set, stays. */
  predicate CellExtends(a: ItemCells, b: ItemCells) {
    && (a.localId.Some? ==> b.localId == a.localId)
    && a.nextChildLocalId <= b.nextChildLocalId
    && (a.canonicalNameCache.Some? ==> b.canonicalNameCache == a.canonicalNameCache)
  }

  predicate Extends(a: Cells, b: Cells) {
    && a.Keys == b.Keys
    && forall k :: k in a ==> CellExtends(a[k], b[k])
  }

  /** No canonical name cache entry differs: only `canonical_name` writes
      the cache, every other naming step leaves it alone. */
  predicate CachesKept(a: Cells, b: Cells) {
    && a.Keys == b.Keys
    && forall k :: k in a ==> a[k].canonicalNameCache == b[k].canonicalNameCache
  }

  lemma ExtendsTransitive(a: Cells, b: Cells, c: Cells)
    requires Extends(a, b) && Extends(b, c)
    ensures Extends(a, c)
  {
  }

  /** Ids handed out so far are positive and below the parent's counter, and
      siblings never share one. */
  ghost predicate LocalIdsSound(ctx: Context, cells: Cells) {
    && (forall k {:trigger ItemLocalIdSound(ctx, cells, k)} :: k in ctx.items ==> ItemLocalIdSound(ctx, cells, k))
    && (forall a, b {:trigger SiblingIdsDiffer(ctx, cells, a, b)} :: SiblingIdsDiffer(ctx, cells, a, b))
  }

  /** The item has cells, its counter is positive, and its id, if it has
      one, is positive and below its parent's counter. */
  predicate ItemLocalIdSound(ctx: Context, cells: Cells, k: ItemId)
    requires k in ctx.items
  {
    && k in cells
    && cells[k].nextChildLocalId >= 1
    && (cells[k].localId.Some? ==>
          ctx.items[k].parent in cells &&
          1 <= cells[k].localId.value < cells[ctx.items[k].parent].nextChildLocalId)
  }

  ghost predicate SiblingIdsDiffer(ctx: Context, cells: Cells, a: ItemId, b: ItemId) {
    (a in ctx.items && b in ctx.items && a != b &&
     ctx.items[a].parent == ctx.items[b].parent &&
     a in cells && b in cells &&
     cells[a].localId.Some? && cells[b].localId.Some?) ==>
    cells[a].localId.value != cells[b].localId.value
  }

  /** Acyclicity of the parent relation as a ranking: every item other than a
      self-parented one ranks above its parent. */
  predicate ParentRanked(ctx: Context, rank: map<ItemId, nat>) {
    forall k :: k in ctx.items ==>
      k in rank && ctx.items[k].parent in rank &&
      (ctx.items[k].parent != k ==> rank[ctx.items[k].parent] < rank[k])
  }

  /** Acyclicity of the type-reference links followed by `name_target`. */
  predicate LinkRanked(ctx: Context, rank: map<ItemId, nat>) {
    forall k :: k in ctx.items ==>
      k in rank &&
      (LinkOf(ctx.items[k].kind).Some? ==>
         LinkOf(ctx.items[k].kind).value in rank &&
         rank[LinkOf(ctx.items[k].kind).value] < rank[k])
  }
}

=== FILE: local_ids.dfy ===
/** `Item::local_id` (src/ir/item.rs:481-494): an id that tells an item apart
    from its siblings, assigned on first request from the parent's
    `next_child_local_id` counter, which starts at 1 (src/ir/item.rs:425) and
    is incremented each time it hands one out. */
module LocalIds {
  import opened Results
  import opened Items

  function LocalId(ctx: Context, cells: Cells, id: ItemId): (r: Out<nat>)
    requires Closed(ctx) && Covers(ctx, cells) && id in ctx.items
    ensures Extends(cells, r.cells) && CachesKept(cells, r.cells)
    ensures r.cells[id].localId == Some(r.value)
    ensures cells[id].localId.Some? ==> r == Out(cells[id].localId.value, cells)
    ensures cells[id].localId.None? ==>
              && r.value == cells[ctx.items[id].parent].nextChildLocalId
              && r.cells[ctx.items[id].parent].nextChildLocalId == r.value + 1
    ensures cells[id].localId.None? && ctx.items[id].parent != id ==>
              && r.cells[ctx.items[id].parent].localId == cells[ctx.items[id].parent].localId
              && r.cells[id].nextChildLocalId == cells[id].nextChildLocalId
    ensures forall k :: k in cells && k != id && k != ctx.items[id].parent ==> r.cells[k] == cells[k]
  {
    assert ItemClosed(ctx, id);
    match cells[id].localId
    case Some(n) => Out(n, cells)
    case None =>
      var p := ctx.items[id].parent;
      var n := cells[p].nextChildLocalId;
      var bumped := cells[p := cells[p].(nextChildLocalId := n + 1)];
      Out(n, bumped[id := bumped[id].(localId := Some(n))])
  }

  /** Asking again in any later state gives the same id and changes nothing. */
  lemma LocalIdStable(ctx: Context, cells: Cells, id: ItemId, later: Cells)
    requires Closed(ctx) && Covers(ctx, cells) && id in ctx.items
    requires Extends(LocalId(ctx, cells, id).cells, later)
    ensures LocalId(ctx, later, id) == Out(LocalId(ctx, cells, id).value, later)
  {
  }

  /** Repeated calls return the same value. */
  lemma LocalIdIdempotent(ctx: Context, cells: Cells, id: ItemId)
    requires Closed(ctx) && Covers(ctx, cells) && id in ctx.items
    ensures var r := LocalId(ctx, cells, id); LocalId(ctx, r.cells, id) == r
  {
    LocalIdStable(ctx, cells, id, LocalId(ctx, cells, id).cells);
  }

  /** The first child asking a freshly created parent gets 1. */
  lemma FirstChildGetsOne(ctx: Context, cells: Cells, id: ItemId)
    requires Closed(ctx) && Covers(ctx, cells) && id in ctx.items
    requires cells[id].localId.None?
    requires ctx.items[id].parent in cells && cells[ctx.items[id].parent] == FreshCells()
    ensures LocalId(ctx, cells, id).value == 1
  {
  }

  /** Assigning a local id keeps the ids sound. */
  lemma LocalIdKeepsSound(ctx: Context, cells: Cells, id: ItemId)
    requires Closed(ctx) && Covers(ctx, cells) && id in ctx.items
    requires LocalIdsSound(ctx, cells)
    ensures LocalIdsSound(ctx, LocalId(ctx, cells, id).cells)
  {
    assert ItemClosed(ctx, id);
    var c := LocalId(ctx, cells, id).cells;
    var p := ctx.items[id].parent;
    if cells[id].localId.None? {
      forall k | k in ctx.items
        ensures ItemLocalIdSound(ctx, c, k)
      {
        assert ItemLocalIdSound(ctx, cells, k);
        assert ItemClosed(ctx, k);
        assert CellExtends(cells[ctx.items[k].parent], c[ctx.items[k].parent]);
        if k == id {
          assert ItemLocalIdSound(ctx, cells, p);
        }
      }
      forall a, b
        ensures SiblingIdsDiffer(ctx, c, a, b)
      {
        assert SiblingIdsDiffer(ctx, cells, a, b);
        if a in ctx.items && b in ctx.items && a != b && ctx.items[a].parent == ctx.items[b].parent {
          if a == id && cells[b].localId.Some? {
            assert ItemLocalIdSound(ctx, cells, b);
          } else if b == id && cells[a].localId.Some? {
            assert ItemLocalIdSound(ctx, cells, a);
          }
        }
      }
    }
  }

  /** A child asking for the first time gets an id above every id its
      siblings already hold: ids increase in order of first request. */
  lemma LocalIdAboveSiblings(ctx: Context, cells: Cells, id: ItemId, sibling: ItemId)
    requires Closed(ctx) && Covers(ctx, cells) && id in ctx.items && sibling in ctx.items
    requires LocalIdsSound(ctx, cells)
    requires cells[id].localId.None? && cells[sibling].localId.Some?
    requires ctx.items[sibling].parent == ctx.items[id].parent
    ensures cells[sibling].localId.value < LocalId(ctx, cells, id).value
  {
    assert ItemLocalIdSound(ctx, cells, sibling);
  }

  /** Two different children of one parent, asked one after the other, get
      different ids. */
  lemma {:induction false} SiblingLocalIdsDistinct(ctx: Context, cells: Cells, a: ItemId, b: ItemId)
    requires Closed(ctx) && Covers(ctx, cells) && a in ctx.items && b in ctx.items
    requires LocalIdsSound(ctx, cells)
    requires a != b && ctx.items[a].parent == ctx.items[b].parent
    ensures var ra := LocalId(ctx, cells, a);
            ra.value != LocalId(ctx, ra.cells, b).value
  {
    LocalIdKeepsSound(ctx, cells, a);
    var ra := LocalId(ctx, cells, a);
    HeldIdNotReissued(ctx, ra.cells, a, b, ra.value);
  }

  /** A sibling that already holds an id never receives it again. */
  lemma HeldIdNotReissued(ctx: Context, cells: Cells, a: ItemId, b: ItemId, x: nat)
    requires Closed(ctx) && Covers(ctx, cells) && a in ctx.items && b in ctx.items
    requires LocalIdsSound(ctx, cells)
    requires a != b && ctx.items[a].parent == ctx.items[b].parent
    requires cells[a].localId == Some(x)
    ensures LocalId(ctx, cells, b).value != x
  {
    LocalIdKeepsSound(ctx, cells, b);
    var rb := LocalId(ctx, cells, b);
    EarlierIdSurvives(ctx, cells, rb.cells, a, b, x, rb.value);
  }

  lemma EarlierIdSurvives(ctx: Context, c1: Cells, c2: Cells, a: ItemId, b: ItemId, x: nat, y: nat)
    requires LocalIdsSound(ctx, c2) && Extends(c1, c2)
    requires a in ctx.items && b in ctx.items && a in c1 && b in c2
    requires a != b && ctx.items[a].parent == ctx.items[b].parent
    requires c1[a].localId == Some(x) && c2[b].localId == Some(y)
    ensures x != y
  {
    assert CellExtends(c1[a], c2[a]);
    SoundSiblingsDiffer(ctx, c2, a, b);
  }

  lemma SoundSiblingsDiffer(ctx: Context, cells: Cells, a: ItemId, b: ItemId)
    requires LocalIdsSound(ctx, cells)
    requires a in ctx.items && b in ctx.items && a in cells && b in cells
    requires a != b && ctx.items[a].parent == ctx.items[b].parent
    requires cells[a].localId.Some? && cells[b].localId.Some?
    ensures cells[a].localId.value != cells[b].localId.value
  {
    assert SiblingIdsDiffer(ctx, cells, a, b);
  }
}

=== FILE: name_target.dfy ===
/** `Item::name_target` (src/ir/item.rs:610-638): the item whose name an item
    is generated under. An item carrying a `replaces` annotation names itself;
    any other item follows `ResolvedTypeRef` and `TemplateInstantiation` links
    until it reaches an item that is neither. The annotation test looks at the
    starting item on every round, never at the item reached. In debug builds
    the loop asserts that it never comes back to an item; that assertion is
    the `NameTargetCycle` error here. */
module Targets {
  import opened Results
  import opened Items

  /** The loop of `name_target` started at `start`, standing at `cur`, having
      visited the items in `seen`. */
  function Chase(ctx: Context, start: ItemId, cur: ItemId, seen: set<ItemId>): (r: Result<ItemId, Error>)
    requires Closed(ctx) && start in ctx.items && cur in ctx.items
    ensures r.Err? ==> r.error.NameTargetCycle?
    ensures r.Ok? ==> r.value in ctx.items
    ensures r.Ok? && !Annotated(ctx, start) ==> LinkOf(ctx.items[r.value].kind).None?
    ensures cur !in seen && Annotated(ctx, start) ==> r == Ok(start)
    decreases ctx.items.Keys - seen
  {
    if cur in seen then Err(NameTargetCycle(cur))
    else if ctx.items[start].annotations.useInsteadOf.Some? then Ok(start)
    else
      assert ItemClosed(ctx, cur);
      match LinkOf(ctx.items[cur].kind)
      case Some(next) => Chase(ctx, start, next, seen + {cur})
      case None => Ok(cur)
  }

  function NameTarget(ctx: Context, id: ItemId): (r: Result<ItemId, Error>)
    requires Closed(ctx) && id in ctx.items
    ensures r.Err? ==> r.error.NameTargetCycle?
    ensures Annotated(ctx, id) ==> r == Ok(id)
    ensures LinkOf(ctx.items[id].kind).None? ==> r == Ok(id)
    ensures r.Ok? ==> r.value in ctx.items
    ensures r.Ok? && !Annotated(ctx, id) ==> LinkOf(ctx.items[r.value].kind).None?
  {
    Chase(ctx, id, id, {})
  }

  /** A naming target names itself. */
  lemma NameTargetIdempotent(ctx: Context, id: ItemId)
    requires Closed(ctx) && id in ctx.items && NameTarget(ctx, id).Ok?
    ensures NameTarget(ctx, NameTarget(ctx, id).value) == NameTarget(ctx, id)
  {
  }

  /** Forgetting visited items cannot turn a successful chase into another
      result. */
  lemma {:induction false} ChaseFewerSeen(ctx: Context, start: ItemId, cur: ItemId, seen: set<ItemId>, fewer: set<ItemId>)
    requires Closed(ctx) && start in ctx.items && cur in ctx.items
    requires fewer <= seen && Chase(ctx, start, cur, seen).Ok?
    ensures Chase(ctx, start, cur, fewer) == Chase(ctx, start, cur, seen)
    decreases ctx.items.Keys - seen
  {
    if !Annotated(ctx, start) {
      assert ItemClosed(ctx, cur);
      match LinkOf(ctx.items[cur].kind)
      case Some(next) =>
        ChaseFewerSeen(ctx, start, next, seen + {cur}, fewer + {cur});
      case None =>
    }
  }

  /** Two unannotated starting items chase alike. */
  lemma {:induction false} ChaseSameForUnannotatedStarts(ctx: Context, s1: ItemId, s2: ItemId, cur: ItemId, seen: set<ItemId>)
    requires Closed(ctx) && s1 in ctx.items && s2 in ctx.items && cur in ctx.items
    requires !Annotated(ctx, s1) && !Annotated(ctx, s2)
    ensures Chase(ctx, s1, cur, seen) == Chase(ctx, s2, cur, seen)
    decreases ctx.items.Keys - seen
  {
    if cur !in seen {
      assert ItemClosed(ctx, cur);
      match LinkOf(ctx.items[cur].kind)
      case Some(next) =>
        ChaseSameForUnannotatedStarts(ctx, s1, s2, next, seen + {cur});
      case None =>
    }
  }

  /** Alias transparency: an unannotated reference to an unannotated item is
      named under the same target as the item it refers to. */
  lemma NameTargetFollowsLink(ctx: Context, x: ItemId, y: ItemId)
    requires Closed(ctx) && x in ctx.items && y in ctx.items
    requires !Annotated(ctx, x) && !Annotated(ctx, y)
    requires LinkOf(ctx.items[x].kind) == Some(y)
    requires NameTarget(ctx, x).Ok?
    ensures NameTarget(ctx, y) == NameTarget(ctx, x)
  {
    assert ItemClosed(ctx, x);
    assert Chase(ctx, x, x, {}) == Chase(ctx, x, y, {} + {x});
    assert {} + {x} == {x};
    ChaseFewerSeen(ctx, x, y, {x}, {});
    ChaseSameForUnannotatedStarts(ctx, x, y, y, {});
  }

  /** The annotation test reads the starting item only: an unannotated
      reference to an annotated item stops there when that item has no link,
      and otherwise passes straight through it as if it were unannotated. */
  lemma NameTargetThroughAnnotated(ctx: Context, x: ItemId, y: ItemId, z: ItemId)
    requires Closed(ctx) && x in ctx.items && y in ctx.items && z in ctx.items
    requires !Annotated(ctx, x) && Annotated(ctx, y)
    requires LinkOf(ctx.items[x].kind) == Some(y)
    ensures LinkOf(ctx.items[y].kind).None? ==> NameTarget(ctx, x) == Ok(y)
    ensures LinkOf(ctx.items[y].kind) == Some(z) && !Annotated(ctx, z) && NameTarget(ctx, x).Ok? ==>
              NameTarget(ctx, x) == NameTarget(ctx, z)
  {
    assert ItemClosed(ctx, x);
    assert ItemClosed(ctx, y);
    assert y != x;
    assert {} + {x} == {x};
    assert Chase(ctx, x, x, {}) == Chase(ctx, x, y, {x});
    if LinkOf(ctx.items[y].kind) == Some(z) && !Annotated(ctx, z) && NameTarget(ctx, x).Ok? {
      assert {x} + {y} == {x, y};
      assert Chase(ctx, x, y, {x}) == Chase(ctx, x, z, {x, y});
      ChaseFewerSeen(ctx, x, z, {x, y}, {});
      ChaseSameForUnannotatedStarts(ctx, x, z, z, {});
    }
  }

  /** Links that have a ranking never trip the cycle assertion. */
  lemma {:induction false} ChaseRankedOk(ctx: Context, rank: map<ItemId, nat>, start: ItemId, cur: ItemId, seen: set<ItemId>)
    requires Closed(ctx) && start in ctx.items && cur in ctx.items && LinkRanked(ctx, rank)
    requires forall s :: s in seen ==> s in rank && rank[s] > rank[cur]
    ensures Chase(ctx, start, cur, seen).Ok?
    decreases rank[cur]
  {
    assert cur !in seen;
    if !Annotated(ctx, start) {
      assert ItemClosed(ctx, cur);
      match LinkOf(ctx.items[cur].kind)
      case Some(next) =>
        ChaseRankedOk(ctx, rank, start, next, seen + {cur});
      case None =>
    }
  }

  lemma NameTargetRankedOk(ctx: Context, rank: map<ItemId, nat>, id: ItemId)
    requires Closed(ctx) && id in ctx.items && LinkRanked(ctx, rank)
    ensures NameTarget(ctx, id).Ok?
  {
    ChaseRankedOk(ctx, rank, id, id, {});
  }
}

=== FILE: naming.dfy ===
/** Base names and canonical names of items (src/ir/item.rs:677-792,
    1402-1417, 1465-1497). Every operation that may assign a local id takes
    the cells and returns them updated. */
module Naming {
  import opened Results
  import opened Items
  import opened Strings
  import opened LocalIds
  import opened Targets
  import opened Overloads
  import opened AncestorWalk

  /** `NameOptions`: whether the name stops at the innermost enclosing
      namespace. `NameOptions::new` leaves it off. */
  datatype NameOptions = NameOptions(withinNamespaces: bool) {
    function WithinNamespaces(): NameOptions {
      this.(withinNamespaces := true)
    }
  }

  /** `exposed_id`: the local id for compound and enum types, `id_` and the
      global id for every other item. */
  function ExposedId(ctx: Context, cells: Cells, id: ItemId): (r: Out<string>)
    requires Closed(ctx) && Covers(ctx, cells) && id in ctx.items
    ensures Extends(cells, r.cells) && CachesKept(cells, r.cells)
    ensures IsCompOrEnum(ctx.items[id].kind) ==>
              r.cells[id].localId.Some? && r.value == Decimal(r.cells[id].localId.value)
    ensures !IsCompOrEnum(ctx.items[id].kind) ==>
              && r.cells == cells
              && |r.value| > 3 && r.value[..3] == "id_"
              && AllDigits(r.value[3..]) && ParseDecimal(r.value[3..]) == id
  {
    if IsCompOrEnum(ctx.items[id].kind) then
      var l := LocalId(ctx, cells, id);
      Out(Decimal(l.value), l.cells)
    else
      ParseDecimalRoundTrip(id);
      assert ("id_" + Decimal(id))[3..] == Decimal(id);
      Out("id_" + Decimal(id), cells)
  }

  predicate IsTypeRef(kind: ItemKind) {
    kind.Type? && kind.ty.kind.ResolvedTypeRef?
  }

  /** `base_name`: the item's own name, without any namespace. A
      `ResolvedTypeRef` panics here: callers must chase it first. */
  function BaseName(ctx: Context, cells: Cells, id: ItemId): (r: Result<Out<string>, Error>)
    requires Closed(ctx) && Covers(ctx, cells) && id in ctx.items
    ensures r.Ok? ==> Extends(cells, r.value.cells) && CachesKept(cells, r.value.cells)
    ensures r.Err? <==> !Annotated(ctx, id) && IsTypeRef(ctx.items[id].kind)
    ensures r.Err? ==> r.error == UnresolvedTypeRef(id)
    ensures Annotated(ctx, id) ==>
              ItemClosed(ctx, id) && r == Ok(Out(Last(ctx.items[id].annotations.useInsteadOf.value), cells))
    ensures var kind := ctx.items[id].kind;
            !Annotated(ctx, id) && kind.Var? ==> r == Ok(Out(kind.varName, cells))
    ensures var kind := ctx.items[id].kind;
            !Annotated(ctx, id) && kind.Module? && kind.moduleName.Some? ==> r == Ok(Out(kind.moduleName.value, cells))
    ensures var kind := ctx.items[id].kind;
            !Annotated(ctx, id) && kind.Type? && !kind.ty.kind.ResolvedTypeRef? && kind.ty.name.Some? ==>
              r == Ok(Out(kind.ty.name.value, cells))
  {
    assert ItemClosed(ctx, id);
    var item := ctx.items[id];
    match item.annotations.useInsteadOf
    case Some(path) => Ok(Out(Last(path), cells))
    case None =>
      match item.kind
      case Var(name) => Ok(Out(name, cells))
      case Module(name, _) =>
        (match name
         case Some(n) => Ok(Out(n, cells))
         case None =>
           var e := ExposedId(ctx, cells, id);
           Ok(Out("_bindgen_mod_" + e.value, e.cells)))
      case Type(ty) =>
        if ty.kind.ResolvedTypeRef? then Err(UnresolvedTypeRef(id))
        else
          (match ty.name
           case Some(n) => Ok(Out(n, cells))
           case None =>
             var e := ExposedId(ctx, cells, id);
             Ok(Out("_bindgen_ty_" + e.value, e.cells)))
      case Function(name) => Ok(Out(name + OverloadSuffix(OverloadIndex(ctx, id)), cells))
  }

  /** The name part of `real_canonical_name` that walks the ancestors of the
      target's parent: skip the root module, stop at the first module when
      `within` is set, take each ancestor's target's base name and drop empty
      ones. `cur` and `seen` are the state of the ancestor iterator. */
  function CollectNames(ctx: Context, cells: Cells, cur: ItemId, seen: set<ItemId>, within: bool): (r: Result<Out<seq<string>>, Error>)
    requires Closed(ctx) && Covers(ctx, cells) && cur in ctx.items
    ensures r.Ok? ==> Extends(cells, r.value.cells) && CachesKept(cells, r.value.cells)
    ensures r.Err? ==> r.error.AncestorCycle? || r.error.NameTargetCycle?
    decreases ctx.items.Keys - seen
  {
    assert ItemClosed(ctx, cur);
    var item := ctx.items[cur];
    if item.parent == cur then Ok(Out([], cells))
    else if cur in seen then Err(AncestorCycle(cur))
    else if cur == ctx.root then CollectNames(ctx, cells, item.parent, seen + {cur}, within)
    else if within && item.kind.Module? then Ok(Out([], cells))
    else
      var t :- NameTarget(ctx, cur);
      match BaseName(ctx, cells, t)
      case Err(e) => Err(e)
      case Ok(b) =>
        var rest :- CollectNames(ctx, b.cells, item.parent, seen + {cur}, within);
        Ok(Out(if b.value == "" then rest.value else [b.value] + rest.value, rest.cells))
  }

  /** `real_canonical_name`: the target's annotation path if it has one;
      the bare base name for a named template parameter; otherwise the
      ancestors' names outermost first, then the base name, joined with `_`
      and mangled. */
  function RealCanonicalName(ctx: Context, cells: Cells, id: ItemId, opt: NameOptions): (r: Result<Out<string>, Error>)
    requires Closed(ctx) && Covers(ctx, cells) && id in ctx.items
    ensures r.Ok? ==> Extends(cells, r.value.cells) && CachesKept(cells, r.value.cells)
    ensures r.Err? ==> r.error.AncestorCycle? || r.error.NameTargetCycle?
  {
    var t :- NameTarget(ctx, id);
    assert ItemClosed(ctx, t);
    var target := ctx.items[t];
    match target.annotations.useInsteadOf
    case Some(path) =>
      Ok(Out(if ctx.options.enableCxxNamespaces then Last(path) else Join(path, "_"), cells))
    case None =>
      match BaseName(ctx, cells, t)
      case Err(e) => Err(e)
      case Ok(base) =>
        if IsNamedParam(target.kind) then Ok(base)
        else
          var outer :- CollectNames(ctx, base.cells, target.parent, {}, opt.withinNamespaces);
          var names := Reverse(outer.value) + (if base.value == "" then [] else [base.value]);
          Ok(Out(ctx.mangle(Join(names, "_")), outer.cells))
  }

  /** The options `canonical_name` uses: within namespaces when C++
      namespaces are enabled or name namespacing is disabled. */
  function CanonicalNameOptions(ctx: Context): NameOptions {
    NameOptions(ctx.options.enableCxxNamespaces || ctx.options.disableNameNamespacing)
  }

  /** `canonical_name`, with its per-item cache. */
  function CanonicalName(ctx: Context, cells: Cells, id: ItemId): (r: Result<Out<string>, Error>)
    requires Closed(ctx) && Covers(ctx, cells) && id in ctx.items
    ensures r.Ok? ==> Extends(cells, r.value.cells)
    ensures r.Ok? ==> r.value.cells[id].canonicalNameCache == Some(r.value.value)
    ensures r.Ok? ==> forall k :: k in cells && k != id ==>
              r.value.cells[k].canonicalNameCache == cells[k].canonicalNameCache
    ensures r.Err? ==> r.error.AncestorCycle? || r.error.NameTargetCycle?
    ensures cells[id].canonicalNameCache.Some? ==> r == Ok(Out(cells[id].canonicalNameCache.value, cells))
  {
    match cells[id].canonicalNameCache
    case Some(name) => Ok(Out(name, cells))
    case None =>
      var n :- RealCanonicalName(ctx, cells, id, CanonicalNameOptions(ctx));
      Ok(Out(n.value, n.cells[id := n.cells[id].(canonicalNameCache := Some(n.value))]))
  }
}

=== FILE: naming_facts.dfy ===
/** Properties of the naming functions: names are stable once computed, the
    cache is transparent, anonymous and overloaded items get names that tell
    them apart, and the ResolvedTypeRef panic of `base_name` cannot be
    reached from `real_canonical_name`. */
module NamingFacts {
  import opened Results
  import opened Items
  import opened Strings
  import opened LocalIds
  import opened Targets
  import opened Overloads
  import opened AncestorWalk
  import opened Naming

  // ---------------------------------------------------------------------
  // Stability: asking again in a later state gives the same answer and
  // leaves the state as it is.
  // ---------------------------------------------------------------------

  lemma ExposedIdStable(ctx: Context, cells: Cells, id: ItemId, later: Cells)
    requires Closed(ctx) && Covers(ctx, cells) && Covers(ctx, later) && id in ctx.items
    requires Extends(ExposedId(ctx, cells, id).cells, later)
    ensures ExposedId(ctx, later, id) == Out(ExposedId(ctx, cells, id).value, later)
  {
    if IsCompOrEnum(ctx.items[id].kind) {
      LocalIdStable(ctx, cells, id, later);
    }
  }

  lemma BaseNameStable(ctx: Context, cells: Cells, id: ItemId, later: Cells)
    requires Closed(ctx) && Covers(ctx, cells) && Covers(ctx, later) && id in ctx.items
    requires BaseName(ctx, cells, id).Ok?
    requires Extends(BaseName(ctx, cells, id).value.cells, later)
    ensures BaseName(ctx, later, id) == Ok(Out(BaseName(ctx, cells, id).value.value, later))
  {
    var item := ctx.items[id];
    if item.annotations.useInsteadOf.None? {
      match item.kind
      case Module(name, _) =>
        if name.None? {
          ExposedIdStable(ctx, cells, id, later);
        }
      case Type(ty) =>
        if ty.name.None? {
          ExposedIdStable(ctx, cells, id, later);
        }
      case _ =>
    }
  }

  lemma {:induction false} CollectNamesStable(ctx: Context, cells: Cells, cur: ItemId, seen: set<ItemId>, within: bool, later: Cells)
    requires Closed(ctx) && Covers(ctx, cells) && Covers(ctx, later) && cur in ctx.items
    requires CollectNames(ctx, cells, cur, seen, within).Ok?
    requires Extends(CollectNames(ctx, cells, cur, seen, within).value.cells, later)
    ensures CollectNames(ctx, later, cur, seen, within) ==
            Ok(Out(CollectNames(ctx, cells, cur, seen, within).value.value, later))
    decreases ctx.items.Keys - seen
  {
    assert ItemClosed(ctx, cur);
    var item := ctx.items[cur];
    if item.parent == cur || cur in seen {
    } else if cur == ctx.root {
      CollectNamesStable(ctx, cells, item.parent, seen + {cur}, within, later);
    } else if within && item.kind.Module? {
    } else {
      var t := NameTarget(ctx, cur).value;
      var b := BaseName(ctx, cells, t).value;
      var rest := CollectNames(ctx, b.cells, item.parent, seen + {cur}, within).value;
      ExtendsTransitive(b.cells, rest.cells, later);
      BaseNameStable(ctx, cells, t, later);
      CollectNamesStable(ctx, b.cells, item.parent, seen + {cur}, within, later);
    }
  }

  lemma RealCanonicalNameStable(ctx: Context, cells: Cells, id: ItemId, opt: NameOptions, later: Cells)
    requires Closed(ctx) && Covers(ctx, cells) && Covers(ctx, later) && id in ctx.items
    requires RealCanonicalName(ctx, cells, id, opt).Ok?
    requires Extends(RealCanonicalName(ctx, cells, id, opt).value.cells, later)
    ensures RealCanonicalName(ctx, later, id, opt) ==
            Ok(Out(RealCanonicalName(ctx, cells, id, opt).value.value, later))
  {
    var t := NameTarget(ctx, id).value;
    assert ItemClosed(ctx, t);
    var target := ctx.items[t];
    if target.annotations.useInsteadOf.None? {
      var base := BaseName(ctx, cells, t).value;
      if IsNamedParam(target.kind) {
        BaseNameStable(ctx, cells, t, later);
      } else {
        var outer := CollectNames(ctx, base.cells, target.parent, {}, opt.withinNamespaces).value;
        ExtendsTransitive(base.cells, outer.cells, later);
        BaseNameStable(ctx, cells, t, later);
        CollectNamesStable(ctx, base.cells, target.parent, {}, opt.withinNamespaces, later);
      }
    }
  }

  /** Naming an item twice gives the same name, the second time without
      touching any state: names are consistent across a run. */
  lemma RealCanonicalNameSettles(ctx: Context, cells: Cells, id: ItemId, opt: NameOptions)
    requires Closed(ctx) && Covers(ctx, cells) && id in ctx.items
    requires RealCanonicalName(ctx, cells, id, opt).Ok?
    ensures var r := RealCanonicalName(ctx, cells, id, opt).value;
            RealCanonicalName(ctx, r.cells, id, opt) == Ok(r)
  {
    var r := RealCanonicalName(ctx, cells, id, opt).value;
    RealCanonicalNameStable(ctx, cells, id, opt, r.cells);
  }

  /** The cached name is what `real_canonical_name` would compute now with
      the options `canonical_name` uses. */
  lemma CanonicalNameCacheTransparent(ctx: Context, cells: Cells, id: ItemId)
    requires Closed(ctx) && Covers(ctx, cells) && id in ctx.items
    requires cells[id].canonicalNameCache.None? && CanonicalName(ctx, cells, id).Ok?
    ensures var r := CanonicalName(ctx, cells, id).value;
            RealCanonicalName(ctx, r.cells, id, CanonicalNameOptions(ctx)) == Ok(r)
  {
    var r := CanonicalName(ctx, cells, id).value;
    var n := RealCanonicalName(ctx, cells, id, CanonicalNameOptions(ctx)).value;
    assert Extends(n.cells, r.cells);
    RealCanonicalNameStable(ctx, cells, id, CanonicalNameOptions(ctx), r.cells);
  }

  // ---------------------------------------------------------------------
  // Exposed ids and anonymous names.
  // ---------------------------------------------------------------------

  /** Two different children of one parent, asked one after the other, get
      different exposed ids: local ids differ among siblings, global ids
      differ everywhere, and a global one starts with a letter where a local
      one starts with a digit. */
  lemma ExposedIdsDistinct(ctx: Context, cells: Cells, a: ItemId, b: ItemId)
    requires Closed(ctx) && Covers(ctx, cells) && a in ctx.items && b in ctx.items
    requires LocalIdsSound(ctx, cells)
    requires a != b && ctx.items[a].parent == ctx.items[b].parent
    ensures var ea := ExposedId(ctx, cells, a);
            ea.value != ExposedId(ctx, ea.cells, b).value
  {
    var ea := ExposedId(ctx, cells, a);
    var eb := ExposedId(ctx, ea.cells, b);
    var localA := IsCompOrEnum(ctx.items[a].kind);
    var localB := IsCompOrEnum(ctx.items[b].kind);
    if localA && localB {
      LocalIdKeepsSound(ctx, cells, a);
      LocalIdKeepsSound(ctx, ea.cells, b);
      EarlierIdSurvives(ctx, ea.cells, eb.cells, a, b, ea.cells[a].localId.value, eb.cells[b].localId.value);
      DecimalInjective(ea.cells[a].localId.value, eb.cells[b].localId.value);
    } else if !localA && !localB {
      assert ea.value == "id_" + Decimal(a) && eb.value == "id_" + Decimal(b);
      AppendCancel("id_", Decimal(a), Decimal(b));
      DecimalInjective(a, b);
    } else if localA {
      assert IsDigit(ea.value[0]) && eb.value[0] == 'i';
    } else {
      assert ea.value[0] == 'i' && IsDigit(eb.value[0]);
    }
  }

  /** An anonymous compound or enum type is called `_bindgen_ty_` and its
      local id, which it keeps from then on. */
  lemma AnonymousTypeName(ctx: Context, cells: Cells, id: ItemId)
    requires Closed(ctx) && Covers(ctx, cells) && id in ctx.items && !Annotated(ctx, id)
    requires ctx.items[id].kind.Type? && ctx.items[id].kind.ty.name.None?
    requires IsCompOrEnum(ctx.items[id].kind)
    ensures var r := BaseName(ctx, cells, id);
            && r.Ok?
            && |r.value.value| > 12 && r.value.value[..12] == "_bindgen_ty_"
            && r.value.cells[id].localId.Some?
            && AllDigits(r.value.value[12..])
            && ParseDecimal(r.value.value[12..]) == r.value.cells[id].localId.value
  {
    var e := ExposedId(ctx, cells, id);
    var r := BaseName(ctx, cells, id).value;
    assert r.value == "_bindgen_ty_" + e.value;
    assert r.value[12..] == e.value;
    ParseDecimalRoundTrip(e.cells[id].localId.value);
  }

  /** Two anonymous sibling types named one after the other get different
      names. */
  lemma AnonymousSiblingTypesDistinct(ctx: Context, cells: Cells, a: ItemId, b: ItemId)
    requires Closed(ctx) && Covers(ctx, cells) && a in ctx.items && b in ctx.items
    requires LocalIdsSound(ctx, cells)
    requires a != b && ctx.items[a].parent == ctx.items[b].parent
    requires !Annotated(ctx, a) && !Annotated(ctx, b)
    requires ctx.items[a].kind.Type? && ctx.items[a].kind.ty.name.None? && !IsTypeRef(ctx.items[a].kind)
    requires ctx.items[b].kind.Type? && ctx.items[b].kind.ty.name.None? && !IsTypeRef(ctx.items[b].kind)
    ensures var na := BaseName(ctx, cells, a).value;
            na.value != BaseName(ctx, na.cells, b).value.value
  {
    var ea := ExposedId(ctx, cells, a);
    var na := BaseName(ctx, cells, a).value;
    assert na == Out("_bindgen_ty_" + ea.value, ea.cells);
    var eb := ExposedId(ctx, ea.cells, b);
    assert BaseName(ctx, na.cells, b).value.value == "_bindgen_ty_" + eb.value;
    ExposedIdsDistinct(ctx, cells, a, b);
    AppendCancel("_bindgen_ty_", ea.value, eb.value);
  }

  /** An anonymous module is called `_bindgen_mod_id_` and its global id,
      which can be read back from the name, so no two anonymous modules
      share a name. */
  lemma AnonymousModuleName(ctx: Context, cells: Cells, id: ItemId)
    requires Closed(ctx) && Covers(ctx, cells) && id in ctx.items && !Annotated(ctx, id)
    requires ctx.items[id].kind.Module? && ctx.items[id].kind.moduleName.None?
    ensures var r := BaseName(ctx, cells, id);
            && r == Ok(Out(r.value.value, cells))
            && |r.value.value| > 16 && r.value.value[..16] == "_bindgen_mod_id_"
            && AllDigits(r.value.value[16..]) && ParseDecimal(r.value.value[16..]) == id
  {
    var e := ExposedId(ctx, cells, id);
    var r := BaseName(ctx, cells, id).value;
    assert r.value == "_bindgen_mod_" + e.value;
    assert r.value[16..] == e.value[3..];
  }

  // ---------------------------------------------------------------------
  // Functions and their overloads.
  // ---------------------------------------------------------------------

  /** The first constructor keeps the bare name; a later one gets its
      position as a decimal suffix. */
  lemma ConstructorBaseName(ctx: Context, cells: Cells, id: ItemId, k: nat)
    requires Closed(ctx) && Covers(ctx, cells) && id in ctx.items && !Annotated(ctx, id)
    requires ctx.items[id].kind.Function? && ParentComp(ctx, id).Some?
    requires k < |ParentComp(ctx, id).value.constructors|
    requires ParentComp(ctx, id).value.constructors[k] == id
    requires id !in ParentComp(ctx, id).value.constructors[..k]
    ensures var name := ctx.items[id].kind.funcName;
            BaseName(ctx, cells, id) ==
            Ok(Out(if k == 0 then name else name + Decimal(k), cells))
  {
    var cs := ParentComp(ctx, id).value.constructors;
    var oi := OverloadIndex(ctx, id);
    FirstPositionUnique(cs, id, oi.value, k);
    var name := ctx.items[id].kind.funcName;
    assert BaseName(ctx, cells, id) == Ok(Out(name + OverloadSuffix(oi), cells));
    if k == 0 {
      assert name + "" == name;
    }
  }

  /** A method that is not a constructor keeps the bare name when no method
      of the same name comes before it, and otherwise gets the number of
      such earlier namesakes as a decimal suffix. */
  lemma MethodBaseName(ctx: Context, cells: Cells, id: ItemId)
    requires Closed(ctx) && Covers(ctx, cells) && id in ctx.items && !Annotated(ctx, id)
    requires ctx.items[id].kind.Function? && ParentComp(ctx, id).Some?
    requires id !in ParentComp(ctx, id).value.constructors && id in ParentComp(ctx, id).value.methods
    ensures var ms := ParentComp(ctx, id).value.methods;
            var name := ctx.items[id].kind.funcName;
            var k := |SameNameMethods(ctx, ms[..IndexOf(ms, id).value], name)|;
            BaseName(ctx, cells, id) == Ok(Out(if k == 0 then name else name + Decimal(k), cells))
  {
    MethodOverloadIndex(ctx, id);
    var name := ctx.items[id].kind.funcName;
    var oi := OverloadIndex(ctx, id);
    assert BaseName(ctx, cells, id) == Ok(Out(name + OverloadSuffix(oi), cells));
    if oi.value == 0 {
      assert name + "" == name;
    }
  }

  /** A function outside any compound type, or in one that lists it neither
      as a constructor nor as a method, has no overload index and keeps its
      declared name, as a plain C function does. */
  lemma FreeFunctionBaseName(ctx: Context, cells: Cells, id: ItemId)
    requires Closed(ctx) && Covers(ctx, cells) && id in ctx.items && !Annotated(ctx, id)
    requires ctx.items[id].kind.Function?
    requires ParentComp(ctx, id).None? ||
             (id !in ParentComp(ctx, id).value.constructors && id !in ParentComp(ctx, id).value.methods)
    ensures BaseName(ctx, cells, id) == Ok(Out(ctx.items[id].kind.funcName, cells))
  {
    var name := ctx.items[id].kind.funcName;
    assert OverloadIndex(ctx, id).None?;
    assert OverloadSuffix(OverloadIndex(ctx, id)) == "";
    assert name + "" == name;
  }

  /** Overloaded functions of one compound type, both constructors or both
      methods of one name, get different base names. */
  lemma OverloadedNamesDistinct(ctx: Context, cells: Cells, a: ItemId, b: ItemId)
    requires Closed(ctx) && Covers(ctx, cells) && a in ctx.items && b in ctx.items && a != b
    requires !Annotated(ctx, a) && !Annotated(ctx, b)
    requires ctx.items[a].kind.Function? && ctx.items[b].kind.Function?
    requires ctx.items[a].kind.funcName == ctx.items[b].kind.funcName
    requires ctx.items[a].parent == ctx.items[b].parent && ParentComp(ctx, a).Some?
    requires var ci := ParentComp(ctx, a).value;
             || (a in ci.constructors && b in ci.constructors)
             || (a !in ci.constructors && b !in ci.constructors && a in ci.methods && b in ci.methods)
    ensures BaseName(ctx, cells, a).value.value != BaseName(ctx, cells, b).value.value
  {
    var ci := ParentComp(ctx, a).value;
    if a in ci.constructors && b in ci.constructors {
      ConstructorIndexesDistinct(ctx, a, b);
    } else {
      MethodIndexesDistinct(ctx, a, b);
    }
    var ia := OverloadIndex(ctx, a).value;
    var ib := OverloadIndex(ctx, b).value;
    SuffixesDistinct(ia, ib);
    AppendCancel(ctx.items[a].kind.funcName, OverloadSuffix(Some(ia)), OverloadSuffix(Some(ib)));
  }

  // ---------------------------------------------------------------------
  // Canonical names.
  // ---------------------------------------------------------------------

  /** `base_name` never panics on what `name_target` returns, so
      `real_canonical_name` fails only through a cycle. */
  lemma BaseNameOfTargetOk(ctx: Context, cells: Cells, id: ItemId)
    requires Closed(ctx) && Covers(ctx, cells) && id in ctx.items
    requires NameTarget(ctx, id).Ok?
    ensures BaseName(ctx, cells, NameTarget(ctx, id).value).Ok?
  {
  }

  /** An item is named after its name target: a type reference and the
      type it refers to get the same name. */
  lemma NamedAfterTarget(ctx: Context, cells: Cells, id: ItemId, opt: NameOptions)
    requires Closed(ctx) && Covers(ctx, cells) && id in ctx.items
    requires NameTarget(ctx, id).Ok?
    ensures RealCanonicalName(ctx, cells, id, opt) == RealCanonicalName(ctx, cells, NameTarget(ctx, id).value, opt)
  {
    NameTargetIdempotent(ctx, id);
  }

  /** A target with a `replaces` annotation is called by its annotation path,
      unmangled: the last element with C++ namespaces on, all of it joined
      with `_` otherwise. The context's options decide, not the naming
      options, so both naming options give the same name. */
  lemma AnnotatedTargetName(ctx: Context, cells: Cells, id: ItemId, opt: NameOptions, other: NameOptions)
    requires Closed(ctx) && Covers(ctx, cells) && id in ctx.items
    requires NameTarget(ctx, id).Ok? && Annotated(ctx, NameTarget(ctx, id).value)
    ensures var path := ctx.items[NameTarget(ctx, id).value].annotations.useInsteadOf.value;
            && |path| > 0
            && RealCanonicalName(ctx, cells, id, opt) ==
               Ok(Out(if ctx.options.enableCxxNamespaces then Last(path) else Join(path, "_"), cells))
    ensures RealCanonicalName(ctx, cells, id, opt) == RealCanonicalName(ctx, cells, id, other)
  {
    assert ItemClosed(ctx, NameTarget(ctx, id).value);
  }

  /** A named template parameter is called by its bare name: no enclosing
      names, no mangling, whatever the options. */
  lemma NamedParamIsBare(ctx: Context, cells: Cells, id: ItemId, opt: NameOptions, name: string)
    requires Closed(ctx) && Covers(ctx, cells) && id in ctx.items && !Annotated(ctx, id)
    requires ctx.items[id].kind == Type(Ty(Some(name), Named))
    ensures RealCanonicalName(ctx, cells, id, opt) == Ok(Out(name, cells))
  {
  }

  /** An item directly inside the root module is named by its mangled base
      name alone. */
  lemma TopLevelCanonicalName(ctx: Context, cells: Cells, id: ItemId, opt: NameOptions)
    requires Closed(ctx) && RootOk(ctx) && Covers(ctx, cells) && id in ctx.items
    requires !Annotated(ctx, id) && LinkOf(ctx.items[id].kind).None? && !IsNamedParam(ctx.items[id].kind)
    requires ctx.items[id].parent == ctx.root
    ensures var b := BaseName(ctx, cells, id).value;
            RealCanonicalName(ctx, cells, id, opt) ==
            Ok(Out(ctx.mangle(b.value), b.cells))
  {
    var b := BaseName(ctx, cells, id).value;
    assert CollectNames(ctx, b.cells, ctx.root, {}, opt.withinNamespaces) == Ok(Out([], b.cells));
    if b.value != "" {
      assert Reverse<string>([]) + [b.value] == [b.value];
    } else {
      assert Reverse<string>([]) + [] == [];
    }
  }

  // ---------------------------------------------------------------------
  // The name walk against the ancestor iterator.
  // ---------------------------------------------------------------------

  /** Reference reading of the names `real_canonical_name` collects from a
      list of ancestors `ks`: the root is skipped, every other ancestor
      contributes the base name of its name target, and empty names are
      dropped. */
  ghost predicate NamedBy(ctx: Context, c: Cells, ks: seq<ItemId>, names: seq<string>)
    requires Closed(ctx) && Covers(ctx, c)
    decreases |ks|
  {
    if |ks| == 0 then names == []
    else if ks[0] !in ctx.items then false
    else if ks[0] == ctx.root then NamedBy(ctx, c, ks[1..], names)
    else
      match NameTarget(ctx, ks[0])
      case Err(_) => false
      case Ok(t) =>
        match BaseName(ctx, c, t)
        case Err(_) => false
        case Ok(b) =>
          if b.value == "" then NamedBy(ctx, c, ks[1..], names)
          else |names| > 0 && names[0] == b.value && NamedBy(ctx, c, ks[1..], names[1..])
  }

  /** Without `within_namespaces`, the collected names are exactly the
      reference names of what the ancestor iterator yields, read in any
      later state. */
  lemma {:induction false} CollectNamesFollowWalk(ctx: Context, cells: Cells, cur: ItemId, seen: set<ItemId>, later: Cells)
    requires Closed(ctx) && Covers(ctx, cells) && Covers(ctx, later) && cur in ctx.items
    requires CollectNames(ctx, cells, cur, seen, false).Ok? && Walk(ctx, cur, seen).Ok?
    requires Extends(CollectNames(ctx, cells, cur, seen, false).value.cells, later)
    ensures NamedBy(ctx, later, Walk(ctx, cur, seen).value, CollectNames(ctx, cells, cur, seen, false).value.value)
    decreases ctx.items.Keys - seen
  {
    assert ItemClosed(ctx, cur);
    var item := ctx.items[cur];
    if item.parent != cur {
      var w := Walk(ctx, cur, seen).value;
      var rest := Walk(ctx, item.parent, seen + {cur}).value;
      assert w == [cur] + rest && w[1..] == rest;
      if cur == ctx.root {
        CollectNamesFollowWalk(ctx, cells, item.parent, seen + {cur}, later);
      } else {
        var t := NameTarget(ctx, cur).value;
        var b := BaseName(ctx, cells, t).value;
        var more := CollectNames(ctx, b.cells, item.parent, seen + {cur}, false).value;
        ExtendsTransitive(b.cells, more.cells, later);
        BaseNameStable(ctx, cells, t, later);
        CollectNamesFollowWalk(ctx, b.cells, item.parent, seen + {cur}, later);
        if b.value != "" {
          assert ([b.value] + more.value)[1..] == more.value;
        }
      }
    }
  }

  /** The names `real_canonical_name` puts before the base name come from
      the ancestors of the target's parent, as the iterator yields them. */
  lemma CollectNamesFollowAncestors(ctx: Context, cells: Cells, cur: ItemId)
    requires Closed(ctx) && Covers(ctx, cells) && cur in ctx.items
    requires CollectNames(ctx, cells, cur, {}, false).Ok? && Ancestors(ctx, cur).Ok?
    ensures var r := CollectNames(ctx, cells, cur, {}, false).value;
            NamedBy(ctx, r.cells, Ancestors(ctx, cur).value, r.value)
  {
    var r := CollectNames(ctx, cells, cur, {}, false).value;
    CollectNamesFollowWalk(ctx, cells, cur, {}, r.cells);
  }

  /** With `within_namespaces` the walk stops at the first module, so it
      collects a prefix of the names it would collect without. */
  lemma {:induction false} WithinNamespacesIsPrefix(ctx: Context, cells: Cells, cur: ItemId, seen: set<ItemId>)
    requires Closed(ctx) && Covers(ctx, cells) && cur in ctx.items
    requires CollectNames(ctx, cells, cur, seen, false).Ok?
    ensures var inner := CollectNames(ctx, cells, cur, seen, true);
            inner.Ok? && inner.value.value <= CollectNames(ctx, cells, cur, seen, false).value.value
    decreases ctx.items.Keys - seen
  {
    assert ItemClosed(ctx, cur);
    var item := ctx.items[cur];
    if item.parent == cur || cur in seen {
    } else if cur == ctx.root {
      WithinNamespacesIsPrefix(ctx, cells, item.parent, seen + {cur});
    } else if !item.kind.Module? {
      var t := NameTarget(ctx, cur).value;
      var b := BaseName(ctx, cells, t).value;
      WithinNamespacesIsPrefix(ctx, b.cells, item.parent, seen + {cur});
    }
  }

  /** The part of a walk `within_namespaces` looks at: everything before the
      first module other than the root. */
  function UpToModule(ctx: Context, ks: seq<ItemId>): (r: seq<ItemId>)
    ensures r <= ks
    ensures forall i :: 0 <= i < |r| ==> !StopsNaming(ctx, r[i])
    ensures |r| < |ks| ==> StopsNaming(ctx, ks[|r|])
  {
    if |ks| == 0 then []
    else if StopsNaming(ctx, ks[0]) then []
    else [ks[0]] + UpToModule(ctx, ks[1..])
  }

  /** A module other than the root: where `within_namespaces` stops. */
  predicate StopsNaming(ctx: Context, k: ItemId) {
    k in ctx.items && k != ctx.root && ctx.items[k].kind.Module?
  }

  /** With `within_namespaces`, the collected names are exactly the reference
      names of what the ancestor iterator yields before the first module
      other than the root, read in any later state. */
  lemma {:induction false} WithinNamespacesFollowWalk(ctx: Context, cells: Cells, cur: ItemId, seen: set<ItemId>, later: Cells)
    requires Closed(ctx) && Covers(ctx, cells) && Covers(ctx, later) && cur in ctx.items
    requires CollectNames(ctx, cells, cur, seen, true).Ok? && Walk(ctx, cur, seen).Ok?
    requires Extends(CollectNames(ctx, cells, cur, seen, true).value.cells, later)
    ensures NamedBy(ctx, later, UpToModule(ctx, Walk(ctx, cur, seen).value),
                    CollectNames(ctx, cells, cur, seen, true).value.value)
    decreases ctx.items.Keys - seen
  {
    assert ItemClosed(ctx, cur);
    var item := ctx.items[cur];
    if item.parent != cur {
      var w := Walk(ctx, cur, seen).value;
      var rest := Walk(ctx, item.parent, seen + {cur}).value;
      assert w == [cur] + rest && w[1..] == rest && w[0] == cur;
      if cur == ctx.root {
        WithinNamespacesFollowWalk(ctx, cells, item.parent, seen + {cur}, later);
        assert UpToModule(ctx, w) == [cur] + UpToModule(ctx, rest);
      } else if item.kind.Module? {
        assert UpToModule(ctx, w) == [];
      } else {
        var t := NameTarget(ctx, cur).value;
        var b := BaseName(ctx, cells, t).value;
        var more := CollectNames(ctx, b.cells, item.parent, seen + {cur}, true).value;
        ExtendsTransitive(b.cells, more.cells, later);
        BaseNameStable(ctx, cells, t, later);
        WithinNamespacesFollowWalk(ctx, b.cells, item.parent, seen + {cur}, later);
        var u := UpToModule(ctx, w);
        assert u == [cur] + UpToModule(ctx, rest) && u[0] == cur && u[1..] == UpToModule(ctx, rest);
        if b.value != "" {
          assert ([b.value] + more.value)[1..] == more.value;
        }
      }
    }
  }

  /** When no module other than the root lies on the walk, as for
      `Outer::Inner` outside any namespace, `within_namespaces` changes
      nothing: every enclosing item still contributes its name. */
  lemma {:induction false} WithinNamespacesWithoutModules(ctx: Context, cells: Cells, cur: ItemId, seen: set<ItemId>)
    requires Closed(ctx) && Covers(ctx, cells) && cur in ctx.items
    requires Walk(ctx, cur, seen).Ok?
    requires forall i :: 0 <= i < |Walk(ctx, cur, seen).value| ==> !StopsNaming(ctx, Walk(ctx, cur, seen).value[i])
    ensures CollectNames(ctx, cells, cur, seen, true) == CollectNames(ctx, cells, cur, seen, false)
    decreases ctx.items.Keys - seen
  {
    assert ItemClosed(ctx, cur);
    var item := ctx.items[cur];
    if item.parent != cur {
      var w := Walk(ctx, cur, seen).value;
      var rest := Walk(ctx, item.parent, seen + {cur}).value;
      assert w == [cur] + rest && w[0] == cur;
      assert forall i :: 0 <= i < |rest| ==> rest[i] == w[i + 1];
      if cur == ctx.root {
        WithinNamespacesWithoutModules(ctx, cells, item.parent, seen + {cur});
      } else {
        match NameTarget(ctx, cur)
        case Err(_) =>
        case Ok(t) =>
          match BaseName(ctx, cells, t)
          case Err(_) =>
          case Ok(b) =>
            WithinNamespacesWithoutModules(ctx, b.cells, item.parent, seen + {cur});
      }
    }
  }

  /** With namespaces enabled, an item inside a namespace is named without
      the names of the namespace and of anything outside it. */
  lemma WithinNamespacesStopsAtModule(ctx: Context, cells: Cells, cur: ItemId, seen: set<ItemId>)
    requires Closed(ctx) && Covers(ctx, cells) && cur in ctx.items && cur !in seen
    requires ctx.items[cur].parent != cur && cur != ctx.root && ctx.items[cur].kind.Module?
    ensures CollectNames(ctx, cells, cur, seen, true) == Ok(Out([], cells))
  {
  }

  // ---------------------------------------------------------------------
  // Without cycles, naming succeeds.
  // ---------------------------------------------------------------------

  lemma {:induction false} CollectNamesRankedOk(ctx: Context, rank: map<ItemId, nat>, link: map<ItemId, nat>,
                                               cells: Cells, cur: ItemId, seen: set<ItemId>, within: bool)
    requires Closed(ctx) && Covers(ctx, cells) && cur in ctx.items
    requires ParentRanked(ctx, rank) && LinkRanked(ctx, link)
    requires forall s :: s in seen ==> s in rank && rank[s] > rank[cur]
    ensures CollectNames(ctx, cells, cur, seen, within).Ok?
    decreases rank[cur]
  {
    assert ItemClosed(ctx, cur);
    var item := ctx.items[cur];
    if item.parent != cur && cur == ctx.root {
      assert cur !in seen;
      CollectNamesRankedOk(ctx, rank, link, cells, item.parent, seen + {cur}, within);
    } else if item.parent != cur {
      assert cur !in seen;
      NameTargetRankedOk(ctx, link, cur);
      var t := NameTarget(ctx, cur).value;
      BaseNameOfTargetOk(ctx, cells, cur);
      var b := BaseName(ctx, cells, t).value;
      CollectNamesRankedOk(ctx, rank, link, b.cells, item.parent, seen + {cur}, within);
    }
  }

  /** When neither the parent links nor the type-reference links form a
      cycle, `real_canonical_name` always produces a name. */
  lemma RealCanonicalNameRankedOk(ctx: Context, rank: map<ItemId, nat>, link: map<ItemId, nat>,
                                  cells: Cells, id: ItemId, opt: NameOptions)
    requires Closed(ctx) && Covers(ctx, cells) && id in ctx.items
    requires ParentRanked(ctx, rank) && LinkRanked(ctx, link)
    ensures RealCanonicalName(ctx, cells, id, opt).Ok?
  {
    NameTargetRankedOk(ctx, link, id);
    var t := NameTarget(ctx, id).value;
    assert ItemClosed(ctx, t);
    BaseNameOfTargetOk(ctx, cells, id);
    var base := BaseName(ctx, cells, t).value;
    CollectNamesRankedOk(ctx, rank, link, base.cells, ctx.items[t].parent, {}, opt.withinNamespaces);
  }

  lemma CanonicalNameRankedOk(ctx: Context, rank: map<ItemId, nat>, link: map<ItemId, nat>, cells: Cells, id: ItemId)
    requires Closed(ctx) && Covers(ctx, cells) && id in ctx.items
    requires ParentRanked(ctx, rank) && LinkRanked(ctx, link)
    ensures CanonicalName(ctx, cells, id).Ok?
  {
    RealCanonicalNameRankedOk(ctx, rank, link, cells, id, CanonicalNameOptions(ctx));
  }
}

=== FILE: overloads.dfy ===
/** `Item::func_name` and `Item::overload_index` (src/ir/item.rs:640-675), and
    the numeric suffix `base_name` appends to an overloaded function's name
    (src/ir/item.rs:702-712). */
module Overloads {
  import opened Results
  import opened Items
  import opened Strings

  /** The function's name, or `None` for any other kind of item. */
  function FuncName(item: Item): (r: Option<string>)
    ensures r.Some? <==> item.kind.Function?
    ensures r.Some? ==> r.value == item.kind.funcName
  {
    match item.kind
    case Function(name) => Some(name)
    case _ => None
  }

  /** `Iterator::position`: the first index holding `x`. */
  function IndexOf(s: seq<ItemId>, x: ItemId): (r: Option<nat>)
    ensures r.None? <==> x !in s
    ensures r.Some? ==> r.value < |s| && s[r.value] == x && x !in s[..r.value]
  {
    if |s| == 0 then None
    else if s[0] == x then Some(0)
    else
      var rest := IndexOf(s[1..], x);
      if rest.None? then None
      else
        assert s[..rest.value + 1] == [s[0]] + s[1..][..rest.value];
        Some(rest.value + 1)
  }

  predicate MethodsAreFunctions(ctx: Context, ms: seq<ItemId>) {
    forall m :: m in ms ==> m in ctx.items && ctx.items[m].kind.Function?
  }

  /** The methods whose function has the given name, in declaration order. */
  function SameNameMethods(ctx: Context, ms: seq<ItemId>, name: string): (r: seq<ItemId>)
    requires MethodsAreFunctions(ctx, ms)
    ensures |r| <= |ms|
    ensures forall m :: m in r <==> m in ms && ctx.items[m].kind.funcName == name
  {
    if |ms| == 0 then []
    else
      var rest := SameNameMethods(ctx, ms[1..], name);
      assert forall m :: m in ms <==> m == ms[0] || m in ms[1..];
      if ctx.items[ms[0]].kind.funcName == name then [ms[0]] + rest else rest
  }

  /** The compound type an item is declared in, if its parent is one. */
  function ParentComp(ctx: Context, id: ItemId): (r: Option<TypeKind>)
    requires Closed(ctx) && id in ctx.items
    ensures r.Some? ==> r.value.Comp? && MethodsAreFunctions(ctx, r.value.methods)
  {
    assert ItemClosed(ctx, id);
    assert ItemClosed(ctx, ctx.items[id].parent);
    var parent := ctx.items[ctx.items[id].parent];
    if parent.kind.Type? && parent.kind.ty.kind.Comp? then Some(parent.kind.ty.kind) else None
  }

  /** `overload_index`: `None` for non-functions and for functions outside a
      compound type; the constructor position for a constructor; otherwise the
      position among the same-named methods. */
  function OverloadIndex(ctx: Context, id: ItemId): (r: Option<nat>)
    requires Closed(ctx) && id in ctx.items
    ensures !ctx.items[id].kind.Function? ==> r.None?
    ensures ParentComp(ctx, id).None? ==> r.None?
    ensures ctx.items[id].kind.Function? && ParentComp(ctx, id).Some? ==>
              var ci := ParentComp(ctx, id).value;
              && (id in ci.constructors ==>
                    r.Some? && r.value < |ci.constructors| && ci.constructors[r.value] == id && id !in ci.constructors[..r.value])
              && (id !in ci.constructors ==> (r.Some? <==> id in ci.methods))
  {
    match FuncName(ctx.items[id])
    case None => None
    case Some(name) =>
      match ParentComp(ctx, id)
      case None => None
      case Some(ci) =>
        assert ItemClosed(ctx, id);
        assert ItemClosed(ctx, ctx.items[id].parent);
        match IndexOf(ci.constructors, id)
        case Some(i) => Some(i)
        case None => IndexOf(SameNameMethods(ctx, ci.methods, name), id)
  }

  /** The suffix `base_name` writes after a function's name: the overload
      index in decimal, with no separator, and only when it is above 0. */
  function OverloadSuffix(index: Option<nat>): string
  {
    if index.Some? && index.value > 0 then Decimal(index.value) else ""
  }

  /** A first position is unique: an element found at two positions, with
      no earlier occurrence before either, was found at the same one. */
  lemma FirstPositionUnique(s: seq<ItemId>, x: ItemId, i: nat, j: nat)
    requires i < |s| && j < |s| && s[i] == x && s[j] == x
    ensures x !in s[..i] && x !in s[..j] ==> i == j
  {
    if i < j {
      assert s[..j][i] == x;
    } else if j < i {
      assert s[..i][j] == x;
    }
  }

  /** The index of a method among its namesakes is the number of namesakes
      declared before it. */
  lemma {:induction false} IndexAmongNamesakes(ctx: Context, ms: seq<ItemId>, name: string, x: ItemId)
    requires MethodsAreFunctions(ctx, ms) && x in ms && ctx.items[x].kind.funcName == name
    ensures IndexOf(SameNameMethods(ctx, ms, name), x) ==
            Some(|SameNameMethods(ctx, ms[..IndexOf(ms, x).value], name)|)
  {
    if ms[0] == x {
      assert ms[..0] == [];
    } else {
      IndexAmongNamesakes(ctx, ms[1..], name, x);
      var k := IndexOf(ms[1..], x).value;
      assert IndexOf(ms, x).value == k + 1;
      assert ms[..k + 1][1..] == ms[1..][..k];
      assert ms[..k + 1][0] == ms[0];
    }
  }

  /** A method that is not a constructor is numbered by the same-named
      methods declared before it. */
  lemma MethodOverloadIndex(ctx: Context, id: ItemId)
    requires Closed(ctx) && id in ctx.items && ctx.items[id].kind.Function?
    requires ParentComp(ctx, id).Some?
    requires id !in ParentComp(ctx, id).value.constructors && id in ParentComp(ctx, id).value.methods
    ensures var ms := ParentComp(ctx, id).value.methods;
            OverloadIndex(ctx, id) ==
            Some(|SameNameMethods(ctx, ms[..IndexOf(ms, id).value], ctx.items[id].kind.funcName)|)
  {
    assert ItemClosed(ctx, id);
    assert ItemClosed(ctx, ctx.items[id].parent);
    IndexAmongNamesakes(ctx, ParentComp(ctx, id).value.methods, ctx.items[id].kind.funcName, id);
  }

  /** Different constructors of one compound type get different indexes. */
  lemma ConstructorIndexesDistinct(ctx: Context, a: ItemId, b: ItemId)
    requires Closed(ctx) && a in ctx.items && b in ctx.items && a != b
    requires ctx.items[a].kind.Function? && ctx.items[b].kind.Function?
    requires ctx.items[a].parent == ctx.items[b].parent && ParentComp(ctx, a).Some?
    requires a in ParentComp(ctx, a).value.constructors && b in ParentComp(ctx, a).value.constructors
    ensures OverloadIndex(ctx, a).Some? && OverloadIndex(ctx, b).Some?
    ensures OverloadIndex(ctx, a) != OverloadIndex(ctx, b)
  {
  }

  /** Different same-named methods of one compound type get different
      indexes. */
  lemma MethodIndexesDistinct(ctx: Context, a: ItemId, b: ItemId)
    requires Closed(ctx) && a in ctx.items && b in ctx.items && a != b
    requires ctx.items[a].kind.Function? && ctx.items[b].kind.Function?
    requires ctx.items[a].kind.funcName == ctx.items[b].kind.funcName
    requires ctx.items[a].parent == ctx.items[b].parent && ParentComp(ctx, a).Some?
    requires a !in ParentComp(ctx, a).value.constructors && b !in ParentComp(ctx, a).value.constructors
    requires a in ParentComp(ctx, a).value.methods && b in ParentComp(ctx, a).value.methods
    ensures OverloadIndex(ctx, a).Some? && OverloadIndex(ctx, b).Some?
    ensures OverloadIndex(ctx, a) != OverloadIndex(ctx, b)
  {
    assert ItemClosed(ctx, a);
    assert ItemClosed(ctx, ctx.items[a].parent);
    var ci := ParentComp(ctx, a).value;
    var same := SameNameMethods(ctx, ci.methods, ctx.items[a].kind.funcName);
    assert OverloadIndex(ctx, a) == IndexOf(same, a);
    assert OverloadIndex(ctx, b) == IndexOf(same, b);
  }

  /** The suffix recovers the index it was written from. */
  lemma SuffixRecoversIndex(k: nat)
    requires k > 0
    ensures AllDigits(OverloadSuffix(Some(k))) && ParseDecimal(OverloadSuffix(Some(k))) == k
  {
    ParseDecimalRoundTrip(k);
  }

  /** Different indexes give different suffixes; the first overload keeps
      the bare name. */
  lemma SuffixesDistinct(i: nat, j: nat)
    requires i != j
    ensures OverloadSuffix(Some(i)) != OverloadSuffix(Some(j))
    ensures OverloadSuffix(Some(0)) == "" && OverloadSuffix(None) == ""
  {
    if i > 0 && j > 0 {
      DecimalInjective(i, j);
    }
  }
}

=== FILE: paths.dfy ===
/** Canonical paths: the names of the enclosing namespaces down to the item,
    and the flattened form the code generator uses when C++ namespaces are
    off (src/ir/item.rs:1421-1462). */
module Paths {
  import opened Results
  import opened Items
  import opened Strings
  import opened Targets
  import opened AncestorWalk
  import opened Naming
  import opened NamingFacts

  /** The filter of `canonical_path`: the target itself, and every module
      that is not inline unless inline namespaces are kept. */
  predicate OnPath(ctx: Context, target: ItemId, k: ItemId)
    requires k in ctx.items
  {
    || k == target
    || (ctx.items[k].kind.Module? &&
        (!ctx.items[k].kind.isInline || ctx.options.conservativeInlineNamespaces))
  }

  function KeepOnPath(ctx: Context, target: ItemId, ks: seq<ItemId>): (r: seq<ItemId>)
    requires forall k :: k in ks ==> k in ctx.items
    ensures forall k :: k in r <==> k in ks && OnPath(ctx, target, k)
    ensures |r| <= |ks|
    ensures |ks| > 0 && OnPath(ctx, target, ks[0]) ==> |r| > 0 && r[0] == ks[0]
    ensures |ks| > 0 && OnPath(ctx, target, Last(ks)) ==> |r| > 0 && Last(r) == Last(ks)
  {
    if |ks| == 0 then []
    else
      var rest := KeepOnPath(ctx, target, ks[1..]);
      assert forall k :: k in ks[1..] ==> k in ks;
      if OnPath(ctx, target, ks[0]) then [ks[0]] + rest else rest
  }

  /** The filter keeps order: filtering a concatenation is concatenating the
      filtered parts, and a single item is kept exactly when it is on the
      path. Together these say `KeepOnPath` is the order-preserving
      subsequence of what `OnPath` accepts. */
  lemma {:induction false} KeepOnPathAppend(ctx: Context, target: ItemId, a: seq<ItemId>, b: seq<ItemId>)
    requires forall k :: k in a + b ==> k in ctx.items
    ensures forall k :: k in a ==> k in ctx.items
    ensures forall k :: k in b ==> k in ctx.items
    ensures KeepOnPath(ctx, target, a + b) == KeepOnPath(ctx, target, a) + KeepOnPath(ctx, target, b)
    decreases |a|
  {
    AppendParts(a, b);
    if |a| == 0 {
    } else {
      AppendParts(a[1..], b);
      assert forall k :: k in a[1..] + b ==> k in a + b;
      KeepOnPathAppend(ctx, target, a[1..], b);
      KeepOnPathCons(ctx, target, a[0], a[1..] + b);
      KeepOnPathCons(ctx, target, a[0], a[1..]);
      var head := if OnPath(ctx, target, a[0]) then [a[0]] else [];
      var ka, kb := KeepOnPath(ctx, target, a[1..]), KeepOnPath(ctx, target, b);
      AppendAssoc(head, ka, kb);
    }
  }

  lemma KeepOnPathCons(ctx: Context, target: ItemId, k: ItemId, s: seq<ItemId>)
    requires k in ctx.items && forall x :: x in s ==> x in ctx.items
    ensures forall x :: x in [k] + s ==> x in ctx.items
    ensures KeepOnPath(ctx, target, [k] + s)
            == (if OnPath(ctx, target, k) then [k] else []) + KeepOnPath(ctx, target, s)
  {
    assert ([k] + s)[0] == k && ([k] + s)[1..] == s;
  }

  lemma KeepOnPathSingle(ctx: Context, target: ItemId, k: ItemId)
    requires k in ctx.items
    ensures KeepOnPath(ctx, target, [k]) == if OnPath(ctx, target, k) then [k] else []
  {
    assert [k][1..] == [];
  }

  /** The names of `ks`, innermost first: each item's name target, named
      within its namespace. */
  function PathNames(ctx: Context, cells: Cells, ks: seq<ItemId>): (r: Result<Out<seq<string>>, Error>)
    requires Closed(ctx) && Covers(ctx, cells)
    requires forall k :: k in ks ==> k in ctx.items
    ensures r.Ok? ==> Extends(cells, r.value.cells) && CachesKept(cells, r.value.cells)
    ensures r.Ok? ==> |r.value.value| == |ks|
    ensures r.Err? ==> r.error.AncestorCycle? || r.error.NameTargetCycle?
    decreases |ks|
  {
    if |ks| == 0 then Ok(Out([], cells))
    else
      var t :- NameTarget(ctx, ks[0]);
      var n :- RealCanonicalName(ctx, cells, t, NameOptions(true));
      assert forall k :: k in ks[1..] ==> k in ks;
      var rest :- PathNames(ctx, n.cells, ks[1..]);
      Ok(Out([n.value] + rest.value, rest.cells))
  }

  /** The lazy iterator chain of `canonical_path` standing at `cur`, having
      yielded `seen`: each item the ancestor iterator yields is filtered and
      named before the iterator takes its next step, and the root comes last.
      A panic while naming an item therefore comes before a cycle the walk
      would only meet further up. */
  function WalkNames(ctx: Context, cells: Cells, cur: ItemId, seen: set<ItemId>, t: ItemId): (r: Result<Out<seq<string>>, Error>)
    requires Closed(ctx) && Covers(ctx, cells) && cur in ctx.items
    ensures r.Ok? ==> Extends(cells, r.value.cells) && CachesKept(cells, r.value.cells)
    ensures r.Err? ==> r.error.AncestorCycle? || r.error.NameTargetCycle?
    ensures r.Ok? ==> Walk(ctx, cur, seen).Ok?
    ensures ctx.items[cur].parent != cur && cur !in seen && OnPath(ctx, t, cur) && NameTarget(ctx, cur).Err? ==>
              r == Err(NameTarget(ctx, cur).error)
    ensures ctx.items[cur].parent != cur && cur !in seen && OnPath(ctx, t, cur) && NameTarget(ctx, cur).Ok? &&
            RealCanonicalName(ctx, cells, NameTarget(ctx, cur).value, NameOptions(true)).Err? ==>
              r == Err(RealCanonicalName(ctx, cells, NameTarget(ctx, cur).value, NameOptions(true)).error)
    decreases ctx.items.Keys - seen
  {
    assert ItemClosed(ctx, cur);
    var item := ctx.items[cur];
    if item.parent == cur then PathNames(ctx, cells, KeepOnPath(ctx, t, [ctx.root]))
    else if cur in seen then Err(AncestorCycle(cur))
    else
      var here :- PathNames(ctx, cells, KeepOnPath(ctx, t, [cur]));
      var rest :- WalkNames(ctx, here.cells, item.parent, seen + {cur}, t);
      Ok(Out(here.value + rest.value, rest.cells))
  }

  /** Naming a concatenation is naming its first part, then its second part
      from the cells the first part leaves. */
  lemma {:induction false} PathNamesAppend(ctx: Context, cells: Cells, a: seq<ItemId>, b: seq<ItemId>)
    requires Closed(ctx) && Covers(ctx, cells)
    requires forall k :: k in a ==> k in ctx.items
    requires forall k :: k in b ==> k in ctx.items
    ensures forall k :: k in a + b ==> k in ctx.items
    ensures PathNames(ctx, cells, a + b) ==
            match PathNames(ctx, cells, a)
            case Err(e) => Err(e)
            case Ok(x) =>
              match PathNames(ctx, x.cells, b)
              case Err(e) => Err(e)
              case Ok(y) => Ok(Out(x.value + y.value, y.cells))
    decreases |a|
  {
    AppendParts(a, b);
    if |a| == 0 {
      match PathNames(ctx, cells, b)
      case Err(_) =>
      case Ok(y) =>
        assert [] + y.value == y.value;
    } else {
      AppendParts(a[1..], b);
      assert (a + b)[0] == a[0] && (a + b)[1..] == a[1..] + b;
      assert forall k :: k in a[1..] ==> k in a;
      match NameTarget(ctx, a[0])
      case Err(_) =>
      case Ok(t) =>
        match RealCanonicalName(ctx, cells, t, NameOptions(true))
        case Err(_) =>
        case Ok(n) =>
          PathNamesAppend(ctx, n.cells, a[1..], b);
          match PathNames(ctx, n.cells, a[1..])
          case Err(_) =>
          case Ok(x) =>
            match PathNames(ctx, x.cells, b)
            case Err(_) =>
            case Ok(y) =>
              AppendAssoc([n.value], x.value, y.value);
    }
  }

  /** When the walk itself succeeds, the lazy chain names exactly the items
      the filter keeps among what the iterator yields and the root, in
      order. */
  lemma {:induction false} WalkNamesAgree(ctx: Context, cells: Cells, cur: ItemId, seen: set<ItemId>, t: ItemId)
    requires Closed(ctx) && Covers(ctx, cells) && cur in ctx.items
    requires Walk(ctx, cur, seen).Ok?
    ensures forall k :: k in Walk(ctx, cur, seen).value + [ctx.root] ==> k in ctx.items
    ensures WalkNames(ctx, cells, cur, seen, t) ==
            PathNames(ctx, cells, KeepOnPath(ctx, t, Walk(ctx, cur, seen).value + [ctx.root]))
    decreases ctx.items.Keys - seen
  {
    WalkShape(ctx, cur, seen);
    var w := Walk(ctx, cur, seen).value;
    assert ItemClosed(ctx, cur);
    var item := ctx.items[cur];
    if item.parent == cur {
      assert w + [ctx.root] == [ctx.root];
    } else {
      var rest := Walk(ctx, item.parent, seen + {cur}).value;
      WalkShape(ctx, item.parent, seen + {cur});
      assert w == [cur] + rest;
      assert w + [ctx.root] == [cur] + (rest + [ctx.root]);
      assert forall k :: k in rest + [ctx.root] ==> k in ctx.items;
      KeepOnPathAppend(ctx, t, [cur], rest + [ctx.root]);
      var kh, kr := KeepOnPath(ctx, t, [cur]), KeepOnPath(ctx, t, rest + [ctx.root]);
      PathNamesAppend(ctx, cells, kh, kr);
      match PathNames(ctx, cells, kh)
      case Err(_) =>
      case Ok(here) =>
        WalkNamesAgree(ctx, here.cells, item.parent, seen + {cur}, t);
    }
  }

  /** `canonical_path`: the root's name followed by the annotation path when
      the item has one; otherwise the names of the target, its ancestors and
      the root that pass the filter, outermost first. */
  function CanonicalPath(ctx: Context, cells: Cells, id: ItemId): (r: Result<Out<seq<string>>, Error>)
    requires Closed(ctx) && Covers(ctx, cells) && id in ctx.items
    ensures r.Ok? ==> Extends(cells, r.value.cells) && CachesKept(cells, r.value.cells)
    ensures r.Err? ==> r.error.AncestorCycle? || r.error.NameTargetCycle?
    ensures r.Ok? && Annotated(ctx, id) ==>
              |r.value.value| == 1 + |ctx.items[id].annotations.useInsteadOf.value| &&
              r.value.value[1..] == ctx.items[id].annotations.useInsteadOf.value
  {
    assert ItemClosed(ctx, id);
    match ctx.items[id].annotations.useInsteadOf
    case Some(path) =>
      var root :- RealCanonicalName(ctx, cells, ctx.root, NameOptions(false));
      assert ([root.value] + path)[1..] == path;
      Ok(Out([root.value] + path, root.cells))
    case None =>
      var t :- NameTarget(ctx, id);
      var names :- WalkNames(ctx, cells, t, {}, t);
      Ok(Out(Reverse(names.value), names.cells))
  }

  /** The target is named before the ancestor iterator steps past it: when
      naming the target panics, that panic is what `canonical_path` reports,
      whatever cycle lies further up the parent chain. */
  lemma CanonicalPathNamesTargetFirst(ctx: Context, cells: Cells, id: ItemId)
    requires Closed(ctx) && Covers(ctx, cells) && id in ctx.items && !Annotated(ctx, id)
    requires NameTarget(ctx, id).Ok?
    ensures var t := NameTarget(ctx, id).value;
            var n := RealCanonicalName(ctx, cells, t, NameOptions(true));
            ctx.items[t].parent != t && n.Err? ==> CanonicalPath(ctx, cells, id) == Err(n.error)
  {
    assert ItemClosed(ctx, id);
    NameTargetIdempotent(ctx, id);
  }

  /** Every item the ancestor iterator yields is in the store. */
  lemma AncestorsInStore(ctx: Context, id: ItemId)
    requires Closed(ctx) && id in ctx.items && Ancestors(ctx, id).Ok?
    ensures forall k :: k in Ancestors(ctx, id).value + [ctx.root] ==> k in ctx.items
  {
    WalkShape(ctx, id, {});
  }

  /** `namespace_aware_canonical_path`: the path itself with C++ namespaces
      on; only its last name with name namespacing off; otherwise everything
      below the root joined with `_`. An empty path is the `unwrap` or slice
      that panics. */
  function NamespaceAwareCanonicalPath(ctx: Context, cells: Cells, id: ItemId): (r: Result<Out<seq<string>>, Error>)
    requires Closed(ctx) && Covers(ctx, cells) && id in ctx.items
    ensures r.Ok? ==> Extends(cells, r.value.cells) && CachesKept(cells, r.value.cells)
    ensures ctx.options.enableCxxNamespaces ==> r == CanonicalPath(ctx, cells, id)
    ensures r.Ok? && !ctx.options.enableCxxNamespaces ==> |r.value.value| == 1
    ensures r.Err? ==> r.error.AncestorCycle? || r.error.NameTargetCycle? || r.error == EmptyPath(id)
  {
    var path :- CanonicalPath(ctx, cells, id);
    if ctx.options.enableCxxNamespaces then Ok(path)
    else if |path.value| == 0 then Err(EmptyPath(id))
    else if ctx.options.disableNameNamespacing then Ok(Out([Last(path.value)], path.cells))
    else Ok(Out([Join(path.value[1..], "_")], path.cells))
  }

  // ---------------------------------------------------------------------
  // What the path holds.
  // ---------------------------------------------------------------------

  /** `n` is the name of `k` within its namespace, read in `c`. */
  predicate NamedAt(ctx: Context, c: Cells, k: ItemId, n: string)
    requires Closed(ctx) && Covers(ctx, c) && k in ctx.items
  {
    && NameTarget(ctx, k).Ok?
    && RealCanonicalName(ctx, c, NameTarget(ctx, k).value, NameOptions(true)) == Ok(Out(n, c))
  }

  /** Each name of the list is the name of its item, read in any later
      state. */
  lemma {:induction false} PathNamesAreNames(ctx: Context, cells: Cells, ks: seq<ItemId>, later: Cells)
    requires Closed(ctx) && Covers(ctx, cells) && Covers(ctx, later)
    requires forall k :: k in ks ==> k in ctx.items
    requires PathNames(ctx, cells, ks).Ok?
    requires Extends(PathNames(ctx, cells, ks).value.cells, later)
    ensures forall i :: 0 <= i < |ks| ==> NamedAt(ctx, later, ks[i], PathNames(ctx, cells, ks).value.value[i])
    decreases |ks|
  {
    if |ks| > 0 {
      var t := NameTarget(ctx, ks[0]).value;
      assert ItemClosed(ctx, t);
      var n := RealCanonicalName(ctx, cells, t, NameOptions(true)).value;
      assert forall k :: k in ks[1..] ==> k in ks;
      var rest := PathNames(ctx, n.cells, ks[1..]).value;
      ExtendsTransitive(n.cells, rest.cells, later);
      RealCanonicalNameStable(ctx, cells, t, NameOptions(true), later);
      PathNamesAreNames(ctx, n.cells, ks[1..], later);
      var names := PathNames(ctx, cells, ks).value.value;
      assert names == [n.value] + rest.value;
      var rel := (k, m) => k in ctx.items && NamedAt(ctx, later, k, m);
      assert rel(ks[0], names[0]);
      assert forall i :: 0 <= i < |ks| - 1 ==> rel(ks[1..][i], rest.value[i]);
      ConsPairs(rel, ks, names);
    }
  }

  /** Two lists related at their heads and index by index in their tails
      are related index by index. */
  lemma ConsPairs<A, B>(rel: (A, B) -> bool, ks: seq<A>, names: seq<B>)
    requires |names| == |ks| > 0 && rel(ks[0], names[0])
    requires forall i :: 0 <= i < |ks| - 1 ==> rel(ks[1..][i], names[1..][i])
    ensures forall i :: 0 <= i < |ks| ==> rel(ks[i], names[i])
  {
    forall i | 1 <= i < |ks|
      ensures rel(ks[i], names[i])
    {
      assert ks[i] == ks[1..][i - 1] && names[i] == names[1..][i - 1];
    }
  }

  /** The items whose names make up the path of an unannotated item with
      target `t`. */
  function PathItems(ctx: Context, t: ItemId): (r: seq<ItemId>)
    requires Closed(ctx) && t in ctx.items && Ancestors(ctx, t).Ok?
    ensures forall k :: k in r ==> k in ctx.items
  {
    AncestorsInStore(ctx, t);
    KeepOnPath(ctx, t, Ancestors(ctx, t).value + [ctx.root])
  }

  /** An unannotated item's path names, outermost first, the items the
      filter keeps among its target, the target's ancestors and the root. */
  lemma CanonicalPathNamesPathItems(ctx: Context, cells: Cells, id: ItemId)
    requires Closed(ctx) && Covers(ctx, cells) && id in ctx.items && !Annotated(ctx, id)
    requires CanonicalPath(ctx, cells, id).Ok?
    ensures NameTarget(ctx, id).Ok? && Ancestors(ctx, NameTarget(ctx, id).value).Ok?
    ensures var p := CanonicalPath(ctx, cells, id).value;
            var ks := PathItems(ctx, NameTarget(ctx, id).value);
            NamedBackwards(ctx, p.cells, ks, p.value)
  {
    UnannotatedPath(ctx, cells, id);
    NamesReversed(ctx, cells, PathItems(ctx, NameTarget(ctx, id).value), CanonicalPath(ctx, cells, id).value);
  }

  /** `names` names the items of `ks` back to front, read in `c`: the path
      order, outermost first, of a list the iterator gives innermost first. */
  predicate NamedBackwards(ctx: Context, c: Cells, ks: seq<ItemId>, names: seq<string>)
    requires Closed(ctx) && Covers(ctx, c)
    requires forall k :: k in ks ==> k in ctx.items
  {
    && |names| == |ks|
    && forall i :: 0 <= i < |ks| ==> NamedAt(ctx, c, ks[|ks| - 1 - i], names[i])
  }

  /** The reversed names of a list of items name those items, last first. */
  lemma NamesReversed(ctx: Context, cells: Cells, ks: seq<ItemId>, p: Out<seq<string>>)
    requires Closed(ctx) && Covers(ctx, cells)
    requires forall k :: k in ks ==> k in ctx.items
    requires PathNames(ctx, cells, ks).Ok?
    requires p == Out(Reverse(PathNames(ctx, cells, ks).value.value), PathNames(ctx, cells, ks).value.cells)
    ensures Covers(ctx, p.cells) && NamedBackwards(ctx, p.cells, ks, p.value)
  {
    var names := PathNames(ctx, cells, ks).value;
    PathNamesAreNames(ctx, cells, ks, names.cells);
    var rel := (k, n) => k in ctx.items && NamedAt(ctx, names.cells, k, n);
    assert forall i :: 0 <= i < |ks| ==> rel(ks[i], names.value[i]);
    ReversedPairs(rel, ks, names.value);
    assert forall i :: 0 <= i < |ks| ==> rel(ks[|ks| - 1 - i], p.value[i]);
  }

  /** Reversing the second of two lists that are related index by index
      relates them back to front. */
  lemma ReversedPairs<A, B>(rel: (A, B) -> bool, ks: seq<A>, names: seq<B>)
    requires |names| == |ks|
    requires forall i :: 0 <= i < |ks| ==> rel(ks[i], names[i])
    ensures forall i :: 0 <= i < |ks| ==> rel(ks[|ks| - 1 - i], Reverse(names)[i])
  {
    forall i | 0 <= i < |ks|
      ensures rel(ks[|ks| - 1 - i], Reverse(names)[i])
    {
      var j := |ks| - 1 - i;
      assert rel(ks[j], names[j]);
    }
  }

  lemma UnannotatedPath(ctx: Context, cells: Cells, id: ItemId)
    requires Closed(ctx) && Covers(ctx, cells) && id in ctx.items && !Annotated(ctx, id)
    requires CanonicalPath(ctx, cells, id).Ok?
    ensures NameTarget(ctx, id).Ok? && Ancestors(ctx, NameTarget(ctx, id).value).Ok?
    ensures var ks := PathItems(ctx, NameTarget(ctx, id).value);
            && PathNames(ctx, cells, ks).Ok?
            && CanonicalPath(ctx, cells, id).value ==
               Out(Reverse(PathNames(ctx, cells, ks).value.value), PathNames(ctx, cells, ks).value.cells)
  {
    assert ItemClosed(ctx, id);
    var t := NameTarget(ctx, id).value;
    assert WalkNames(ctx, cells, t, {}, t).Ok?;
    WalkNamesAgree(ctx, cells, t, {}, t);
  }

  /** The first item of the kept list is the target itself: the iterator
      yields it first, and when it yields nothing the target is the root. */
  lemma PathItemsStartAtTarget(ctx: Context, t: ItemId)
    requires Closed(ctx) && RootOk(ctx) && t in ctx.items && Ancestors(ctx, t).Ok?
    ensures |PathItems(ctx, t)| > 0 && PathItems(ctx, t)[0] == t
    ensures Last(PathItems(ctx, t)) == ctx.root
  {
    var w := Ancestors(ctx, t).value;
    AncestorsInStore(ctx, t);
    assert (w + [ctx.root])[0] == t;
    assert Last(w + [ctx.root]) == ctx.root;
  }

  /** With a proper root, the path of an unannotated item ends with the
      item's own name within its namespace. */
  lemma CanonicalPathEndsWithOwnName(ctx: Context, cells: Cells, id: ItemId)
    requires Closed(ctx) && RootOk(ctx) && Covers(ctx, cells) && id in ctx.items && !Annotated(ctx, id)
    requires CanonicalPath(ctx, cells, id).Ok?
    ensures var p := CanonicalPath(ctx, cells, id).value;
            && |p.value| > 0
            && RealCanonicalName(ctx, p.cells, id, NameOptions(true)) == Ok(Out(Last(p.value), p.cells))
  {
    CanonicalPathNamesPathItems(ctx, cells, id);
    var t := NameTarget(ctx, id).value;
    PathItemsStartAtTarget(ctx, t);
    NameTargetIdempotent(ctx, id);
    var p := CanonicalPath(ctx, cells, id).value;
    var ks := PathItems(ctx, t);
    assert NamedAt(ctx, p.cells, ks[|ks| - 1 - (|ks| - 1)], p.value[|ks| - 1]);
    NamedAfterTarget(ctx, p.cells, id, NameOptions(true));
  }

  /** The root module named `n` is called `n`, mangled, with or without
      `within_namespaces`. */
  lemma RootName(ctx: Context, cells: Cells, opt: NameOptions, n: string)
    requires Closed(ctx) && RootOk(ctx) && Covers(ctx, cells)
    requires ctx.items[ctx.root].kind.moduleName == Some(n)
    ensures RealCanonicalName(ctx, cells, ctx.root, opt) == Ok(Out(ctx.mangle(n), cells))
  {
    assert ItemClosed(ctx, ctx.root);
    assert CollectNames(ctx, cells, ctx.root, {}, opt.withinNamespaces) == Ok(Out([], cells));
    if n == "" {
      assert Reverse<string>([]) + [] == [];
    } else {
      assert Reverse<string>([]) + [n] == [n];
    }
  }

  /** With a proper root named `n`, every path starts with `n`, mangled:
      from the root's own name when the item is annotated, and as the
      outermost kept item otherwise. */
  lemma CanonicalPathStartsAtRoot(ctx: Context, cells: Cells, id: ItemId, n: string)
    requires Closed(ctx) && RootOk(ctx) && Covers(ctx, cells) && id in ctx.items
    requires ctx.items[ctx.root].kind.moduleName == Some(n)
    requires CanonicalPath(ctx, cells, id).Ok?
    ensures var p := CanonicalPath(ctx, cells, id).value.value;
            |p| > 0 && p[0] == ctx.mangle(n)
  {
    if Annotated(ctx, id) {
      RootName(ctx, cells, NameOptions(false), n);
    } else {
      CanonicalPathNamesPathItems(ctx, cells, id);
      var t := NameTarget(ctx, id).value;
      PathItemsStartAtTarget(ctx, t);
      var p := CanonicalPath(ctx, cells, id).value;
      var ks := PathItems(ctx, t);
      assert NamedAt(ctx, p.cells, ks[|ks| - 1 - 0], p.value[0]);
      assert ItemClosed(ctx, ctx.root);
      RootName(ctx, p.cells, NameOptions(true), n);
    }
  }

  /** Without C++ namespaces, the one name the code generator sees is built
      from the canonical path: its last element with name namespacing off,
      otherwise everything below the root joined with `_`; an empty path is
      an error, and so is a failed path. */
  lemma NamespaceAwareFromPath(ctx: Context, cells: Cells, id: ItemId)
    requires Closed(ctx) && Covers(ctx, cells) && id in ctx.items
    requires !ctx.options.enableCxxNamespaces
    ensures var r := NamespaceAwareCanonicalPath(ctx, cells, id);
            var p := CanonicalPath(ctx, cells, id);
            && (p.Err? ==> r == Err(p.error))
            && (p.Ok? && |p.value.value| == 0 ==> r == Err(EmptyPath(id)))
            && (p.Ok? && |p.value.value| > 0 && ctx.options.disableNameNamespacing ==>
                  r == Ok(Out([Last(p.value.value)], p.value.cells)))
            && (p.Ok? && |p.value.value| > 0 && !ctx.options.disableNameNamespacing ==>
                  r == Ok(Out([Join(p.value.value[1..], "_")], p.value.cells)))
  {
  }

  /** Dropping the outermost name and the last (outermost) item keeps the
      backwards naming. */
  lemma NamedBackwardsBelow(ctx: Context, c: Cells, ks: seq<ItemId>, names: seq<string>)
    requires Closed(ctx) && Covers(ctx, c)
    requires forall k :: k in ks ==> k in ctx.items
    requires |ks| > 0 && NamedBackwards(ctx, c, ks, names)
    ensures forall k :: k in ks[..|ks| - 1] ==> k in ctx.items
    ensures NamedBackwards(ctx, c, ks[..|ks| - 1], names[1..])
  {
    var below := ks[..|ks| - 1];
    assert forall k :: k in below ==> k in ks;
    forall i | 0 <= i < |below|
      ensures NamedAt(ctx, c, below[|below| - 1 - i], names[1..][i])
    {
      assert below[|below| - 1 - i] == ks[|ks| - 1 - (i + 1)];
    }
  }

  /** With a proper root and name namespacing on, the one name of an
      unannotated item is the `_`-join of names that name, outermost first,
      the kept items strictly below the root: its kept ancestors and its
      target, without the root's own name. */
  lemma NamespaceAwareJoinsItemsBelowRoot(ctx: Context, cells: Cells, id: ItemId)
    requires Closed(ctx) && RootOk(ctx) && Covers(ctx, cells) && id in ctx.items && !Annotated(ctx, id)
    requires !ctx.options.enableCxxNamespaces && !ctx.options.disableNameNamespacing
    requires NamespaceAwareCanonicalPath(ctx, cells, id).Ok?
    ensures NameTarget(ctx, id).Ok? && Ancestors(ctx, NameTarget(ctx, id).value).Ok?
    ensures var ks := PathItems(ctx, NameTarget(ctx, id).value);
            |ks| > 0 && Last(ks) == ctx.root
    ensures var r := NamespaceAwareCanonicalPath(ctx, cells, id).value;
            var ks := PathItems(ctx, NameTarget(ctx, id).value);
            exists below :: NamedBackwards(ctx, r.cells, ks[..|ks| - 1], below) && r.value == [Join(below, "_")]
  {
    NamespaceAwareFromPath(ctx, cells, id);
    CanonicalPathNamesPathItems(ctx, cells, id);
    var t := NameTarget(ctx, id).value;
    PathItemsStartAtTarget(ctx, t);
    var p := CanonicalPath(ctx, cells, id).value;
    var ks := PathItems(ctx, t);
    NamedBackwardsBelow(ctx, p.cells, ks, p.value);
    var below := p.value[1..];
    assert NamedBackwards(ctx, p.cells, ks[..|ks| - 1], below);
  }

  lemma PathNamesCons(ctx: Context, cells: Cells, k: ItemId, rest: seq<ItemId>, n: string, ns: seq<string>)
    requires Closed(ctx) && Covers(ctx, cells) && k in ctx.items
    requires forall x :: x in rest ==> x in ctx.items
    requires LinkOf(ctx.items[k].kind).None?
    requires RealCanonicalName(ctx, cells, k, NameOptions(true)) == Ok(Out(n, cells))
    requires PathNames(ctx, cells, rest) == Ok(Out(ns, cells))
    ensures PathNames(ctx, cells, [k] + rest) == Ok(Out([n] + ns, cells))
  {
    assert ([k] + rest)[1..] == rest;
  }

  /** The path of an unannotated item that is its own target, from its
      ancestors, the items the filter keeps and their names. */
  lemma PathFromNames(ctx: Context, cells: Cells, id: ItemId, walked: seq<ItemId>, ks: seq<ItemId>, ns: seq<string>)
    requires Closed(ctx) && Covers(ctx, cells) && id in ctx.items && !Annotated(ctx, id)
    requires NameTarget(ctx, id) == Ok(id) && Ancestors(ctx, id) == Ok(walked)
    requires forall k :: k in walked + [ctx.root] ==> k in ctx.items
    requires KeepOnPath(ctx, id, walked + [ctx.root]) == ks
    requires PathNames(ctx, cells, ks) == Ok(Out(ns, cells))
    ensures CanonicalPath(ctx, cells, id) == Ok(Out(Reverse(ns), cells))
  {
    assert ItemClosed(ctx, id);
    WalkNamesAgree(ctx, cells, id, {}, id);
  }

  /** With a proper root, `namespace_aware_canonical_path` never meets an
      empty path, and with name namespacing off its one name is the item's
      own name within its namespace. */
  lemma NamespaceAwarePathOk(ctx: Context, cells: Cells, id: ItemId)
    requires Closed(ctx) && RootOk(ctx) && Covers(ctx, cells) && id in ctx.items
    requires CanonicalPath(ctx, cells, id).Ok?
    ensures NamespaceAwareCanonicalPath(ctx, cells, id).Ok?
    ensures var r := NamespaceAwareCanonicalPath(ctx, cells, id).value;
            !ctx.options.enableCxxNamespaces && ctx.options.disableNameNamespacing && !Annotated(ctx, id) ==>
              RealCanonicalName(ctx, r.cells, id, NameOptions(true)) == Ok(Out(r.value[0], r.cells))
  {
    if !Annotated(ctx, id) {
      CanonicalPathEndsWithOwnName(ctx, cells, id);
    }
  }
}

=== FILE: results.dfy ===
/** Option and Result, the two failure-compatible wrappers the model uses.
    `Result` stands for the places where the IR code panics (a debug
    assertion or an `unwrap` that fails), so that every operation of the
    model is total and the panic becomes a value a lemma can talk about. */
module Results {

  datatype Option<T> = None | Some(value: T)

  datatype Result<T, E> = Ok(value: T) | Err(error: E) {

    predicate IsFailure() {
      Err?
    }

    function PropagateFailure<U>(): Result<U, E>
      requires Err?
    {
      Err(error)
    }

    function Extract(): T
      requires Ok?
    {
      value
    }
  }
}

=== FILE: sound_ids.dfy ===
/** Local ids stay sound through every naming operation: ids handed out are
    positive, below the parent's counter, and distinct among siblings
    (src/ir/item.rs:481-494, and the callers of `local_id` at
    src/ir/item.rs:678-792, 1402-1462). Fresh cells are sound, so every state
    a naming run reaches from a fresh store is, and the distinctness lemmas
    about anonymous siblings apply to it. */
module SoundIds {
  import opened Results
  import opened Items
  import opened LocalIds
  import opened Targets
  import opened Naming
  import opened NamingFacts
  import opened Paths
  import opened AncestorWalk

  /** A store that has not been named yet has sound local ids. */
  lemma FreshIdsSound(ctx: Context)
    ensures LocalIdsSound(ctx, Fresh(ctx))
  {
    var c := Fresh(ctx);
    forall k | k in ctx.items
      ensures ItemLocalIdSound(ctx, c, k)
    {
      assert c[k] == FreshCells();
    }
    forall a, b
      ensures SiblingIdsDiffer(ctx, c, a, b)
    {
      if a in ctx.items {
        assert c[a] == FreshCells();
      }
    }
  }

  lemma ExposedIdKeepsSound(ctx: Context, cells: Cells, id: ItemId)
    requires Closed(ctx) && Covers(ctx, cells) && id in ctx.items
    requires LocalIdsSound(ctx, cells)
    ensures LocalIdsSound(ctx, ExposedId(ctx, cells, id).cells)
  {
    if IsCompOrEnum(ctx.items[id].kind) {
      LocalIdKeepsSound(ctx, cells, id);
    }
  }

  lemma BaseNameKeepsSound(ctx: Context, cells: Cells, id: ItemId)
    requires Closed(ctx) && Covers(ctx, cells) && id in ctx.items
    requires LocalIdsSound(ctx, cells)
    ensures BaseName(ctx, cells, id).Ok? ==> LocalIdsSound(ctx, BaseName(ctx, cells, id).value.cells)
  {
    assert ItemClosed(ctx, id);
    ExposedIdKeepsSound(ctx, cells, id);
  }

  lemma {:induction false} CollectNamesKeepsSound(ctx: Context, cells: Cells, cur: ItemId, seen: set<ItemId>, within: bool)
    requires Closed(ctx) && Covers(ctx, cells) && cur in ctx.items
    requires LocalIdsSound(ctx, cells)
    ensures var r := CollectNames(ctx, cells, cur, seen, within);
            r.Ok? ==> LocalIdsSound(ctx, r.value.cells)
    decreases ctx.items.Keys - seen
  {
    assert ItemClosed(ctx, cur);
    var item := ctx.items[cur];
    if item.parent == cur || cur in seen {
    } else if cur == ctx.root {
      CollectNamesKeepsSound(ctx, cells, item.parent, seen + {cur}, within);
    } else if within && item.kind.Module? {
    } else if NameTarget(ctx, cur).Ok? {
      var t := NameTarget(ctx, cur).value;
      BaseNameKeepsSound(ctx, cells, t);
      if BaseName(ctx, cells, t).Ok? {
        var b := BaseName(ctx, cells, t).value;
        CollectNamesKeepsSound(ctx, b.cells, item.parent, seen + {cur}, within);
      }
    }
  }

  lemma RealCanonicalNameKeepsSound(ctx: Context, cells: Cells, id: ItemId, opt: NameOptions)
    requires Closed(ctx) && Covers(ctx, cells) && id in ctx.items
    requires LocalIdsSound(ctx, cells)
    ensures var r := RealCanonicalName(ctx, cells, id, opt);
            r.Ok? ==> LocalIdsSound(ctx, r.value.cells)
  {
    if NameTarget(ctx, id).Ok? {
      var t := NameTarget(ctx, id).value;
      assert ItemClosed(ctx, t);
      BaseNameKeepsSound(ctx, cells, t);
      if BaseName(ctx, cells, t).Ok? {
        var b := BaseName(ctx, cells, t).value;
        CollectNamesKeepsSound(ctx, b.cells, ctx.items[t].parent, {}, opt.withinNamespaces);
      }
    }
  }

  /** Writing a cached name touches no local id and no counter. */
  lemma CacheWriteKeepsSound(ctx: Context, cells: Cells, id: ItemId, name: string)
    requires id in cells && LocalIdsSound(ctx, cells)
    ensures LocalIdsSound(ctx, cells[id := cells[id].(canonicalNameCache := Some(name))])
  {
    var c := cells[id := cells[id].(canonicalNameCache := Some(name))];
    forall k | k in ctx.items
      ensures ItemLocalIdSound(ctx, c, k)
    {
      assert ItemLocalIdSound(ctx, cells, k);
    }
    forall a, b
      ensures SiblingIdsDiffer(ctx, c, a, b)
    {
      assert SiblingIdsDiffer(ctx, cells, a, b);
    }
  }

  lemma CanonicalNameKeepsSound(ctx: Context, cells: Cells, id: ItemId)
    requires Closed(ctx) && Covers(ctx, cells) && id in ctx.items
    requires LocalIdsSound(ctx, cells)
    ensures var r := CanonicalName(ctx, cells, id);
            r.Ok? ==> LocalIdsSound(ctx, r.value.cells)
  {
    if cells[id].canonicalNameCache.None? {
      RealCanonicalNameKeepsSound(ctx, cells, id, CanonicalNameOptions(ctx));
      var n := RealCanonicalName(ctx, cells, id, CanonicalNameOptions(ctx));
      if n.Ok? {
        CacheWriteKeepsSound(ctx, n.value.cells, id, n.value.value);
      }
    }
  }

  lemma {:induction false} PathNamesKeepsSound(ctx: Context, cells: Cells, ks: seq<ItemId>)
    requires Closed(ctx) && Covers(ctx, cells)
    requires forall k :: k in ks ==> k in ctx.items
    requires LocalIdsSound(ctx, cells)
    ensures var r := PathNames(ctx, cells, ks);
            r.Ok? ==> LocalIdsSound(ctx, r.value.cells)
    decreases |ks|
  {
    if |ks| > 0 && NameTarget(ctx, ks[0]).Ok? {
      var t := NameTarget(ctx, ks[0]).value;
      assert ItemClosed(ctx, t);
      RealCanonicalNameKeepsSound(ctx, cells, t, NameOptions(true));
      var n := RealCanonicalName(ctx, cells, t, NameOptions(true));
      if n.Ok? {
        assert forall k :: k in ks[1..] ==> k in ks;
        PathNamesKeepsSound(ctx, n.value.cells, ks[1..]);
      }
    }
  }

  lemma CanonicalPathKeepsSound(ctx: Context, cells: Cells, id: ItemId)
    requires Closed(ctx) && Covers(ctx, cells) && id in ctx.items
    requires LocalIdsSound(ctx, cells)
    ensures var r := CanonicalPath(ctx, cells, id);
            r.Ok? ==> LocalIdsSound(ctx, r.value.cells)
  {
    assert ItemClosed(ctx, id);
    if Annotated(ctx, id) {
      RealCanonicalNameKeepsSound(ctx, cells, ctx.root, NameOptions(false));
    } else if NameTarget(ctx, id).Ok? && Ancestors(ctx, NameTarget(ctx, id).value).Ok? {
      var t := NameTarget(ctx, id).value;
      AncestorsInStore(ctx, t);
      WalkNamesAgree(ctx, cells, t, {}, t);
      PathNamesKeepsSound(ctx, cells, PathItems(ctx, t));
    }
  }

  lemma NamespaceAwareCanonicalPathKeepsSound(ctx: Context, cells: Cells, id: ItemId)
    requires Closed(ctx) && Covers(ctx, cells) && id in ctx.items
    requires LocalIdsSound(ctx, cells)
    ensures var r := NamespaceAwareCanonicalPath(ctx, cells, id);
            r.Ok? ==> LocalIdsSound(ctx, r.value.cells)
  {
    CanonicalPathKeepsSound(ctx, cells, id);
  }

  /** After naming any item of a fresh store, two anonymous sibling types
      named next still get different names. */
  lemma AnonymousSiblingsDistinctAfterNaming(ctx: Context, x: ItemId, a: ItemId, b: ItemId)
    requires Closed(ctx) && x in ctx.items && a in ctx.items && b in ctx.items
    requires CanonicalName(ctx, Fresh(ctx), x).Ok?
    requires a != b && ctx.items[a].parent == ctx.items[b].parent
    requires !Annotated(ctx, a) && !Annotated(ctx, b)
    requires ctx.items[a].kind.Type? && ctx.items[a].kind.ty.name.None? && !IsTypeRef(ctx.items[a].kind)
    requires ctx.items[b].kind.Type? && ctx.items[b].kind.ty.name.None? && !IsTypeRef(ctx.items[b].kind)
    ensures var c := CanonicalName(ctx, Fresh(ctx), x).value.cells;
            var na := BaseName(ctx, c, a).value;
            na.value != BaseName(ctx, na.cells, b).value.value
  {
    FreshIdsSound(ctx);
    CanonicalNameKeepsSound(ctx, Fresh(ctx), x);
    var c := CanonicalName(ctx, Fresh(ctx), x).value.cells;
    AnonymousSiblingTypesDistinct(ctx, c, a, b);
  }
}

=== FILE: strings.dfy ===
/** The string helpers the naming code needs: `Vec<String>::join`, the last
    element of a path, reversal of a name list, and the decimal rendering of
    an unsigned number done by Rust's `{}` formatting. */
module Strings {

  /** `parts.join(sep)`: the parts with `sep` between neighbours. */
  function Join(parts: seq<string>, sep: string): string
  {
    if |parts| == 0 then ""
    else if |parts| == 1 then parts[0]
    else Join(parts[..|parts| - 1], sep) + sep + parts[|parts| - 1]
  }

  function Last<T>(s: seq<T>): T
    requires |s| > 0
  {
    s[|s| - 1]
  }

  function Reverse<T>(s: seq<T>): (r: seq<T>)
    ensures |r| == |s|
    ensures forall i :: 0 <= i < |s| ==> r[i] == s[|s| - 1 - i]
  {
    if |s| == 0 then [] else Reverse(s[1..]) + [s[0]]
  }

  predicate IsDigit(c: char) {
    '0' <= c <= '9'
  }

  predicate AllDigits(s: string) {
    forall i :: 0 <= i < |s| ==> IsDigit(s[i])
  }

  function DigitChar(d: nat): (c: char)
    requires d < 10
    ensures IsDigit(c)
  {
    "0123456789"[d]
  }

  function DigitValue(c: char): nat
    requires IsDigit(c)
  {
    (c as int - '0' as int) as nat
  }

  /** Decimal rendering of `n` without leading zeros, as `format!("{}", n)`. */
  function Decimal(n: nat): (s: string)
    ensures |s| >= 1 && AllDigits(s)
    ensures s[0] == '0' ==> n == 0
    decreases n
  {
    if n < 10 then [DigitChar(n)] else Decimal(n / 10) + [DigitChar(n % 10)]
  }

  /** The value of a string of decimal digits; the inverse of `Decimal`. */
  function ParseDecimal(s: string): nat
    requires AllDigits(s)
  {
    if |s| == 0 then 0 else ParseDecimal(s[..|s| - 1]) * 10 + DigitValue(s[|s| - 1])
  }

  lemma {:induction false} ParseDecimalRoundTrip(n: nat)
    ensures ParseDecimal(Decimal(n)) == n
    decreases n
  {
    var s := Decimal(n);
    if n >= 10 {
      ParseDecimalRoundTrip(n / 10);
      assert s[..|s| - 1] == Decimal(n / 10);
    }
  }

  lemma DecimalInjective(a: nat, b: nat)
    ensures Decimal(a) == Decimal(b) ==> a == b
  {
    ParseDecimalRoundTrip(a);
    ParseDecimalRoundTrip(b);
  }

  /** Appending different suffixes to one prefix gives different strings. */
  lemma AppendCancel(p: string, x: string, y: string)
    ensures p + x == p + y ==> x == y
  {
    if p + x == p + y {
      assert x == (p + x)[|p|..];
      assert y == (p + y)[|p|..];
    }
  }

  /** How a concatenation splits. */
  lemma AppendParts<T>(a: seq<T>, b: seq<T>)
    ensures forall x :: x in a + b <==> x in a || x in b
    ensures |a| == 0 ==> a + b == b
    ensures |a| > 0 ==> [a[0]] + (a[1..] + b) == a + b && [a[0]] + a[1..] == a
  {
    if |a| > 0 {
      assert a == [a[0]] + a[1..];
    }
  }

  lemma AppendAssoc<T>(a: seq<T>, b: seq<T>, c: seq<T>)
    ensures a + (b + c) == (a + b) + c
  {
  }
}

=== FILE: toplevel.dfy ===
/** `is_toplevel` (src/ir/item.rs:514-538): whether the code generator emits
    an item itself or leaves it to its parent. */
module Toplevel {
  import opened Results
  import opened Items
  import opened AncestorWalk

  /** The loop of `is_toplevel`, from ancestor `p` on. A missing item ends it
      with `false`; a module that is its own parent, or any other parent
      cycle of modules, would spin forever and is `ToplevelLoop`. */
  function ToplevelFrom(ctx: Context, p: ItemId, seen: set<ItemId>): (r: Result<bool, Error>)
    ensures r.Err? ==> !ctx.options.enableCxxNamespaces && r.error.ToplevelLoop?
    ensures ctx.options.enableCxxNamespaces ==>
              r == Ok(p in ctx.items && ctx.items[p].id == ctx.root)
    ensures r == Ok(true) ==> p in ctx.items
    decreases ctx.items.Keys - seen
  {
    if p !in ctx.items then Ok(false)
    else
      var item := ctx.items[p];
      if item.id == ctx.root then Ok(true)
      else if ctx.options.enableCxxNamespaces || !item.kind.Module? then Ok(false)
      else if p in seen then Err(ToplevelLoop(p))
      else ToplevelFrom(ctx, item.parent, seen + {p})
  }

  /** `is_toplevel`. With C++ namespaces on, only the root module and the
      items directly inside it are top level; with them off, an item is top
      level when every ancestor up to the root is a module. */
  function IsToplevel(ctx: Context, id: ItemId): (r: Result<bool, Error>)
    requires id in ctx.items
    ensures ctx.options.enableCxxNamespaces ==> r.Ok?
    ensures ctx.options.enableCxxNamespaces && ctx.items[id].kind.Module? && ctx.items[id].id != ctx.root ==>
              r == Ok(false)
  {
    var item := ctx.items[id];
    if ctx.options.enableCxxNamespaces && item.kind.Module? && item.id != ctx.root then Ok(false)
    else ToplevelFrom(ctx, item.parent, {})
  }

  predicate AllModules(ctx: Context, ks: seq<ItemId>) {
    forall i :: 0 <= i < |ks| ==> ks[i] in ctx.items && ctx.items[ks[i]].kind.Module?
  }

  /** With C++ namespaces on: top level means directly inside the root and
      not a module other than the root. */
  lemma ToplevelWithNamespaces(ctx: Context, id: ItemId)
    requires Closed(ctx) && id in ctx.items && ctx.options.enableCxxNamespaces
    ensures IsToplevel(ctx, id) ==
            Ok(!(ctx.items[id].kind.Module? && id != ctx.root) && ctx.items[id].parent == ctx.root)
  {
    assert ItemClosed(ctx, id);
    assert ItemClosed(ctx, ctx.items[id].parent);
  }

  lemma {:induction false} ToplevelFollowsWalk(ctx: Context, p: ItemId, seen: set<ItemId>)
    requires Closed(ctx) && RootOk(ctx) && p in ctx.items && !ctx.options.enableCxxNamespaces
    requires Walk(ctx, p, seen).Ok?
    ensures ToplevelFrom(ctx, p, seen) == Ok(AllModules(ctx, Walk(ctx, p, seen).value))
    decreases ctx.items.Keys - seen
  {
    assert ItemClosed(ctx, p);
    var item := ctx.items[p];
    if p != ctx.root {
      assert item.parent != p;
      var rest := Walk(ctx, item.parent, seen + {p}).value;
      assert Walk(ctx, p, seen).value == [p] + rest;
      if item.kind.Module? {
        ToplevelFollowsWalk(ctx, item.parent, seen + {p});
        assert AllModules(ctx, [p] + rest) == AllModules(ctx, rest) by {
          if AllModules(ctx, rest) {
            forall i | 0 <= i < |[p] + rest|
              ensures ([p] + rest)[i] in ctx.items && ctx.items[([p] + rest)[i]].kind.Module?
            {
              if i > 0 {
                assert ([p] + rest)[i] == rest[i - 1];
              }
            }
          }
          if AllModules(ctx, [p] + rest) {
            forall i | 0 <= i < |rest|
              ensures rest[i] in ctx.items && ctx.items[rest[i]].kind.Module?
            {
              assert rest[i] == ([p] + rest)[i + 1];
            }
          }
        }
      } else {
        assert ([p] + rest)[0] == p;
      }
    }
  }

  /** With C++ namespaces off and a proper root: top level means every
      ancestor of the parent, up to the root, is a module. */
  lemma ToplevelWithoutNamespaces(ctx: Context, id: ItemId)
    requires Closed(ctx) && RootOk(ctx) && id in ctx.items && !ctx.options.enableCxxNamespaces
    requires ctx.items[id].parent in ctx.items && Ancestors(ctx, ctx.items[id].parent).Ok?
    ensures IsToplevel(ctx, id) == Ok(AllModules(ctx, Ancestors(ctx, ctx.items[id].parent).value))
  {
    ToplevelFollowsWalk(ctx, ctx.items[id].parent, {});
  }

  /** A module that is its own parent but not the root sends the loop
      round forever when namespaces are off. */
  lemma StraySelfParentLoops(ctx: Context, id: ItemId, m: ItemId)
    requires id in ctx.items && m in ctx.items && !ctx.options.enableCxxNamespaces
    requires ctx.items[id].parent == m && ctx.items[m].parent == m
    requires ctx.items[m].kind.Module? && ctx.items[m].id != ctx.root
    ensures IsToplevel(ctx, id) == Err(ToplevelLoop(m))
  {
    assert ToplevelFrom(ctx, m, {m}) == Err(ToplevelLoop(m));
    assert {} + {m} == {m};
    assert ToplevelFrom(ctx, m, {}) == ToplevelFrom(ctx, m, {} + {m});
  }
}
